=== FILE: README.md ===
# A verified model of a pyxel tile platformer

The game is a side-scrolling platformer on a 45 x 16 tilemap of 8-pixel tiles. The world is 360 pixels
wide and the screen 160. Each tick the player is moved by the arrow keys, jumps under gravity and
collides with ground tiles. Patrol enemies walk back and forth over three tiles near their spawn
points. Touching an enemy ends the game. Reaching x = 312 clears it. In either end state the R key
restarts the level.

There are two variants. `main.py` has acceleration with friction, a triple jump and a dash.
`christmas-game/main.py` has constant speed, a single jump and no dash, and adds falling snow. Its
restart test differs, as described under Findings.

The model is pure Dafny functions over immutable datatypes, one module per part of the program:

- `Tiles`: the tilemap and `check_tile_collision`. Python's `int(v / 8)` truncates toward zero, and
  this is written out in `Tiles.Trunc`.
- `Enemies`: `Enemy.update` and its patrol invariant.
- `Players`: `Player.update` split into the stages it runs. The two variants are one function
  parameterised by `Config`. `Players.Main` is 3 jumps, accelerated movement and a dash.
  `Players.Christmas` is 1 jump, constant speed and no dash.
- `Resting`: how the vertical pass leaves the body relative to the ground. The box stays clear of
  ground, both landing paths put it exactly on top of a ground row, and a player standing still
  alternates its ground flag.
- `Spawning`: `App.spawn_enemies`.
- `Snowfall`: `Snow.update` and the snow list sweep.
- `Game`: the session (`init_game` and one tick of `App.update` for each variant), and a session
  invariant that both variants keep.

The collision code and the enemy code are identical in the two files. The model cites `main.py` for
them. The christmas copies are `christmas-game/main.py:15-27` (`Enemy.update`) and
`christmas-game/main.py:56-72` (`check_tile_collision`).

## Model

| member | source | states |
|---|---|---|
| Tiles.Trunc | main.py:64-67 | Python's `int()` of a real: the integer part, toward zero, on both sides of 0 |
| Tiles.TileOf | main.py:64-67 | the tile coordinate of a pixel coordinate: the 8-pixel band containing it for v >= 0; every v in (-8, 8) maps to tile 0 |
| Tiles.TileOfMonotonic | main.py:64-67 | tile coordinates never decrease as the pixel coordinate grows |
| Tiles.FirstSolid | main.py:69-77 | the corner loop reports a hit iff some listed corner is a ground tile inside the 45 x 16 map; a hit returns the pixel top of the row of the first ground corner in list order, and no hit returns (False, 0) |
| Tiles.CheckTileCollision | main.py:61-77 | the 8 x 8 box at (x, y) is blocked iff one of its four corner tiles is ground; the reported y is the top of the upper row when an upper corner is ground, else of the lower row |
| Tiles.ProbeScansCorners | main.py:63-77 | the unrolled probe equals the loop over the corner list in its order top-left, top-right, bottom-left, bottom-right |
| Enemies.Spawned | main.py:4-12 | a new enemy starts alive at its spawn point, walking and facing right (dx = 1), inside its patrol range |
| Enemies.Update | main.py:14-26 | one step keeps the enemy on its patrol; it turns exactly when the step reaches an end of the range and is then put on that end; otherwise it moves by dx |
| Enemies.PatrolForever | main.py:14-26 | any number of updates keeps the enemy in [startX, startX + 24] on its row |
| Enemies.PatrolPeriod | main.py:14-26 | a spawned enemy is back in its initial state after 48 updates |
| Enemies.WalkRight | main.py:14-26 | away from the right end, n updates of a right-walking enemy move it n pixels right |
| Enemies.WalkLeft | main.py:14-26 | away from the left end, n updates of a left-walking enemy move it n pixels left |
| Players.NewPlayer | main.py:36-59 | a new player is at rest, alive, neither on the ground nor falling, facing right, with no jump charge spent and both dash timers at 0 |
| Players.TickDashTimers | main.py:80-86 | the cooldown and the dash duration count down while positive; the dash ends when its duration is spent; the dash timer invariant is kept |
| Players.HorizontalInput | main.py:88-96 | left wins over right and sets the facing; accelerated movement adds ±0.5 toward a held arrow, and with no arrow multiplies dx by the friction 0.85, which moves it toward 0 without crossing it; constant speed (christmas-game/main.py lines 76-83) sets ±1.5 or 0 |
| Players.LimitSpeed | main.py:98-100 | outside a dash, accelerated speed is clamped to [-3, 3]; anything already within range, or dashing, is unchanged |
| Players.StartDash | main.py:102-107 | a dash starts exactly when enabled, pressed and off cooldown; it sets 10 dash ticks, 30 cooldown ticks and twice the maximum speed in the facing direction |
| Players.Jump | main.py:109-118 | a press on the ground spends the first charge; in the air it spends another while fewer than the maximum are spent; otherwise nothing changes; the jump-charge invariant is kept |
| Players.CutOff | main.py:120-122 | with the jump key held nothing changes; with it up, upward speed is at most 2, a faster rise is cut to exactly 2, and only dy changes |
| Players.ApplyGravity | main.py:124-127 | an airborne body gains 0.35 of downward speed, capped at 6; a grounded one is unchanged |
| Players.MoveHorizontally | main.py:129-139 | the x step is taken iff the box at the new x is clear; otherwise the body stays and dx becomes 0 |
| Players.MoveVertically | main.py:141-175 | all four outcomes of the vertical pass: direct landing, ceiling push-back, look-ahead snap, free move; a landing restores every jump charge |
| Players.ClampX | main.py:177-178 | x is clamped to [0, 352] and nothing else changes |
| Players.Run | main.py:79-107 | the horizontal input phase keeps the dash invariant, bounds the non-dash speed by 3, and starts a dash (cooldown 30) iff it is pressed with the cooldown at most 1 before the countdown |
| Players.Rise | main.py:109-127 | the vertical input phase keeps the jump-charge invariant, never refunds a charge, and caps the fall speed |
| Players.Move | main.py:129-178 | the movement phase ends inside the world, only zeroes dx, and keeps the jump-charge invariant |
| Players.Update | main.py:79-178 | a whole player tick: inside the world, jump and dash invariants kept, charges refunded only by a landing, speed bounded outside a dash, dash started exactly on a press off cooldown |
| Players.RunKeepsBounded | main.py:79-107 | the horizontal input phase keeps the speed invariant: at most 3 outside a dash, and at most 11 - d/2 with d dash ticks left, since a dash starts at 6 and gains at most 0.5 per tick |
| Players.RiseSpeedBound | main.py:109-127 | the vertical input phase keeps dy between the jump strength and the maximum fall speed |
| Players.UpdateKeepsBounded | main.py:79-178 | a whole tick keeps the facing, the vertical speed range, the dash timers and the speed invariant; the horizontal speed never exceeds 11 |
| Players.ChristmasUpdate | christmas-game/main.py:74-154 | the christmas tick: the arrow keys give speed ±1.5 (0 at a wall) or 0, the dash fields never change, and at most one jump charge is spent |
| Resting.BoxRows | main.py:64-67 | for y >= 0 the body's box covers one row or two adjacent rows |
| Resting.AlignedBox | main.py:64-67 | the tile rows of a body at a tile-aligned height |
| Resting.LandedRests | main.py:164-172 | a body whose rows are clear directly above a ground row rests on that row |
| Resting.ClearByRows | main.py:61-77 | a box is clear iff neither of its two rows has ground under either column; a blocked probe reports the first blocking row |
| Resting.DirectHitRests | main.py:164-172 | from a clear box at y >= 0, a downward move blocked within 7 pixels lands the body resting on the ground row it hit |
| Resting.SnapRests | main.py:148-157 | from a clear box at y >= 0, the one-pixel look-ahead snap lands the body resting on the ground row it found |
| Resting.LandingRests | main.py:141-175 | a downward vertical pass of at most 7 pixels from a clear box, at y >= 0 or anywhere when the top row has no ground, that sets the ground flag leaves the body resting on ground |
| Resting.LandingFromAbove | main.py:141-175 | with no ground in the top row, a fall from above the map top that sets the ground flag leaves the body resting on the second row at y = 0 |
| Resting.CeilingKeepsClear | main.py:173-175 | a blocked upward move is pushed back below the ceiling row, into a clear box no lower than it started |
| Resting.CeilingCase | main.py:173-175 | after a head bump the vertical pass leaves the body in a clear box |
| Resting.VerticalPassKeepsClear | main.py:141-175 | a vertical pass of at most 7 pixels from a clear box at y >= 0, or from anywhere when the top row has no ground, ends in a clear box |
| Resting.TopRowClear | main.py:64-77 | a rise from y in [0, 8) that ends above the map top probes only the top row, which the body already cleared |
| Resting.AboveTopClear | main.py:61-77 | with no ground in the top row, every box with its top edge above y = 1 is clear |
| Resting.ProbeBelowTop | main.py:61-77 | with no ground in the top row, a box with its top edge above y = 8 can only be blocked by the second row |
| Resting.VerticalPassFromAbove | main.py:141-175 | with no ground in the top row, a vertical pass from above the map top ends in a clear box |
| Resting.ClampKeepsClear | main.py:177-178 | for -15 < x < 360, the world clamp keeps a clear box clear: the clamped box covers only columns the unclamped one already covered |
| Resting.HorizontalPassKeepsClear | main.py:129-139 | the horizontal pass from a clear box ends in a clear box at the same height |
| Resting.TickKeepsClear | main.py:79-178 | a whole tick from a clear box, with the player's state within the invariant of `Players.UpdateKeepsBounded`, x < 349 and y >= 0 (or any y when the top row has no ground), ends in a clear box: the player is never embedded in ground |
| Resting.RightEdgeEmbeds | main.py:79-178 | from x = 352, a dash at 11 pixels per tick is probed only against the never-solid columns 45 and 46, and the clamp then leaves the body inside ground |
| Resting.TopRowLandingSinks | main.py:61-77 | with ground in the top row, a body falling onto it from above lands at y = -8 inside it, and the next tick pushes it through to y = 8 |
| Resting.IdleInput | main.py:79-127 | with no key down, the input phase leaves a standing body in place and only gravity acts |
| Resting.IdleTickLeavesGround | main.py:161-163 | an idle tick on the ground clears the ground flag without moving the player |
| Resting.IdleTickSnapsBack | main.py:148-157 | the next idle tick snaps the player back onto the same ground, grounded |
| Resting.SnapBack | main.py:148-157 | the vertical pass of that tick lands the body exactly where it was |
| Resting.SameRows | main.py:61-77 | boxes covering the same rows probe the same |
| Resting.SnapFromAligned | main.py:148-157 | gravity's first step from a resting place stays clear and the look-ahead finds the same ground row |
| Resting.RestingFlickers | main.py:141-175 | a player standing still alternates between grounded and airborne, without moving |
| Spawning.ScanFrom | main.py:206-212 | the scan from a cell yields exactly the enemies of the markers at or after it, in row-major order |
| Spawning.ClearMarkers | main.py:211-212 | exactly the markers become empty tiles and every other cell is unchanged |
| Spawning.SpawnEnemies | main.py:203-213 | one enemy per marker at the marker's pixel position, none elsewhere, in row-major order, no two at one position, all on patrol; the tilemap keeps no marker and nothing else changes |
| Spawning.SpawnIsIdempotent | main.py:203-213 | spawning again from the cleared tilemap finds no enemy and changes nothing |
| Spawning.NothingToClear | main.py:206-212 | clearing a tilemap without markers is the identity |
| Snowfall.Update | christmas-game/main.py:182-195 | a stopped flake stays as it is; a falling one moves down 0.5 and stops iff the tile just below it is ground inside the map |
| Snowfall.Sweep | christmas-game/main.py:263-267 | a flake is on the swept list iff it is the update of a listed flake and is still falling inside the world; the list never grows |
| Snowfall.SweepIsUpdateThenKeep | christmas-game/main.py:263-267 | the one-pass sweep over a copy of the list equals updating every flake and then keeping, in order, exactly those still falling inside the world |
| Snowfall.SweepKeepsFalling | christmas-game/main.py:263-267 | flakes falling through open air inside the world are all kept, in order |
| Snowfall.FreshFlakeLands | christmas-game/main.py:173-195 | a new flake is dropped on its first update iff it lands on ground, never for leaving the world |
| Game.InitGame | main.py:215-222 | a fresh level: the enemies and cleared tilemap of the spawn scan, a new player at the top-left, both flags down, camera at 0, no snow |
| Game.Camera | main.py:232-235 | the camera centres the player but stays within [0, 200] |
| Game.TouchesIffOverlap | main.py:179-185 | an enemy touches the player iff their 8 x 8 boxes overlap on both axes |
| Game.EnemyPass | main.py:237-243 | exactly the enemies near the screen are updated, the others are untouched, and the pass reports a hit iff an updated nearby enemy touches the player |
| Game.Advance | main.py:225-243 | a running tick: the player tick, clear iff x >= 312, camera on the player, the enemy pass, game over iff a nearby enemy touched the player, who is then dead |
| Game.Resolve | main.py:229-243 | given the moved player: clear iff x >= 312 or already cleared, camera on the player, only nearby enemies updated, game over iff already over or a nearby updated enemy touches the player, who is then dead |
| Game.MainTick | main.py:224-247 | running sessions advance; finished ones are frozen, and R restarts them |
| Game.SnowStep | christmas-game/main.py:257-267 | the timer counts to 7, then adds a flake and restarts; the sweep follows; only the snow fields change and every listed flake is still falling |
| Game.ChristmasAdvance | christmas-game/main.py:237-267 | a running christmas tick: the player, goal, camera and enemy part is exactly `Advance` with the christmas settings; the snow timer counts to 7, then the given flake is added and the timer restarts; the sweep follows |
| Game.ChristmasTick | christmas-game/main.py:236-270 | the christmas update as written: running sessions advance with snow; after a running tick R restarts the level exactly when that tick set game over (a tick that only clears the game is not restarted), and a cleared game never changes |
| Game.ChristmasTickRestartable | christmas-game/main.py:269-270 | the corrected update: R restarts either end state, including one the same tick reached |
| Game.ChristmasClearIsFinal | christmas-game/main.py:269-270 | as written, no sequence of ticks, each with its own keys and new flake, leaves a cleared christmas game, R included |
| Game.RestartableClearRestarts | christmas-game/main.py:296-299 | with the corrected test, R leaves the clear screen for a fresh level, as in main.py |
| Game.InitIsSound | main.py:215-222 | a fresh level satisfies the session invariant |
| Game.UpdateKeepsPlayerSound | main.py:79-178 | the player's tick, left of the goal, keeps its part of the session invariant: jumps, dash, speeds, position, and a clear box when the top row has no ground |
| Game.ResolveKeepsSound | main.py:229-243 | the rest of a running tick keeps the session invariant once the moved player satisfies its part |
| Game.AdvanceKeepsSound | main.py:225-243 | a running tick keeps the session invariant |
| Game.MainTickKeepsSound | main.py:224-247 | main.py's update keeps the session invariant |
| Game.ChristmasAdvanceKeepsSound | christmas-game/main.py:237-267 | the running christmas tick keeps the session invariant |
| Game.ChristmasTickKeepsSound | christmas-game/main.py:236-270 | both the as-written and the corrected christmas updates keep the session invariant |
| Game.RunningTickKeepsClear | main.py:225-243 | in a running session, a tick from a clear box at y >= 0 ends in a clear box, on any level |

## Left out

- Drawing (`draw` methods), window creation, and `pyxel.run` are not modelled.
- The resource file is not modelled. The level tilemap is a parameter of `Game.InitGame`, and a restart reloads the same one.
- Keyboard polling becomes the `Players.Input` record. Held and just-pressed keys are independent booleans, so a press without a hold is allowed.
- The random position and pattern of a new flake are not computed. The new flake is a parameter that must satisfy `Snowfall.Fresh`. The pattern only affects drawing, so it is not kept.
- Floating-point rounding is not modelled. Coordinates and speeds are exact reals, so 0.85 friction and 0.35 gravity are exact.
- `initial_direction` and `move_range` in `Enemy` are not fields. The first is never read. The second is the constant `Enemies.MoveRange`.
- The engine's tilemap answers (0, 0) outside its stored size. `Tiles.Cell` does the same outside the grid sequence. Only cells inside 45 x 16 are ever solid.
- Above the top of the map the truncated tile index rounds toward zero, so a body with y in (-8, 0) is probed as if it were in row 0. The model keeps this behaviour. `Resting.VerticalPassKeepsClear`, `Resting.LandingRests` and `Resting.TickKeepsClear` cover a body above the map top only when the level's top row holds no ground (`Resting.TopRowFree`). `Resting.DirectHitRests` and `Resting.SnapRests` are stated for y >= 0 only, and `Resting.LandingFromAbove` covers the landings from above. With ground in the top row, a body falling onto it is probed as already inside it: `Resting.TopRowLandingSinks` shows it landing at y = -8 and being pushed through the row on the next tick.
- Resting.LandingRests: with ground in the top row, it holds only for y >= 0. A body falling onto that ground from above the map top lands inside it, not resting on it, as `Resting.TopRowLandingSinks` shows.
- Resting.TickKeepsClear: holds only for x < 349 and, when the top row has ground, only for y >= 0. From x >= 349 a dash can carry the body into columns 45 and 46, which are never probed as ground, and the clamp then puts it back over ground it never checked; `Resting.RightEdgeEmbeds` exhibits this. In a running session x < 312, since x >= 312 clears the game, so `Game.RunningTickKeepsClear` is not limited by it.
- Game.Sound: states that the player's box is clear only for levels whose top row holds no ground, for the reason above. The player starts at y = 0 and can jump above the map top, so y >= 0 is not an invariant.
- Resting.VerticalPassKeepsClear: limited to steps of at most 7 pixels. The source never produces more than 6.

## Findings

| source | as written | input that shows it | evidently intended | confidence | as-written member | corrected member |
|---|---|---|---|---|---|---|
| christmas-game/main.py:269-270 | the restart test is `game_over and btnp(KEY_R)`, so a cleared game (`game_clear` set, `game_over` not) is never restarted | reach x >= 312 without touching an enemy, then press R on any later tick: the session stays on the clear screen forever, although christmas-game/main.py:299 prints "PRESS R TO RESTART" | restart when `(game_over or game_clear)` and R, as main.py:244-247 does | not executed | Game.ChristmasClearIsFinal | Game.ChristmasTickRestartable |

=== FILE: enemies.dfy ===
/** The patrol enemy: walks one pixel per tick back and forth over the three tiles to the
    right of its spawn point, ignoring the tilemap. Identical in both game variants. */
module Enemies {

  /** How far right of its spawn point an enemy walks: three tiles. */
  const MoveRange: int := 24

  /** `direction` only selects the sprite; `isAlive` is never cleared. */
  datatype Enemy = Enemy(x: int, y: int, dx: int, direction: int, isAlive: bool, startX: int)

  /** A freshly spawned enemy, walking right from its spawn point. */
  function Spawned(x: int, y: int): (e: Enemy)
    ensures Patrolling(e) && e.x == e.startX == x && e.y == y
    ensures e.dx == 1 && e.direction == 1 && e.isAlive
  {
    Enemy(x, y, 1, 1, true, x)
  }

  /** The patrol invariant: inside its range, moving one pixel, facing the way it moves. */
  predicate Patrolling(e: Enemy) {
    && e.startX <= e.x <= e.startX + MoveRange
    && (e.dx == 1 || e.dx == -1)
    && e.direction == e.dx
  }

  /** This tick's step reaches (or passes) one end of the range. */
  predicate ReachesBound(e: Enemy) {
    e.x + e.dx >= e.startX + MoveRange || e.x + e.dx <= e.startX
  }

  /** `Enemy.update`. A patrolling enemy stays patrolling; it turns round exactly on the
      tick it reaches an end of its range, and is then placed on that end. */
  function Update(e: Enemy): (r: Enemy)
    ensures r.y == e.y && r.startX == e.startX && r.isAlive == e.isAlive
    ensures Patrolling(e) ==> Patrolling(r)
    ensures Patrolling(e) ==> (r.dx == -e.dx <==> ReachesBound(e))
    ensures Patrolling(e) && !ReachesBound(e) ==> r.x == e.x + e.dx && r.dx == e.dx
    ensures Patrolling(e) && ReachesBound(e) ==> r.x == (if e.dx == 1 then e.startX + MoveRange else e.startX)
  {
    var x := e.x + e.dx;
    if x >= e.startX + MoveRange then
      e.(x := e.startX + MoveRange, dx := -e.dx, direction := -e.direction)
    else if x <= e.startX then
      e.(x := e.startX, dx := -e.dx, direction := -e.direction)
    else
      e.(x := x)
  }

  /** `n` consecutive updates. */
  function UpdateN(e: Enemy, n: nat): Enemy
    decreases n
  {
    if n == 0 then e else UpdateN(Update(e), n - 1)
  }

  /** However many ticks an enemy is updated, it never leaves [startX, startX + 24]. */
  lemma {:induction false} PatrolForever(e: Enemy, n: nat)
    requires Patrolling(e)
    ensures Patrolling(UpdateN(e, n))
    ensures UpdateN(e, n).startX == e.startX && UpdateN(e, n).y == e.y
    decreases n
  {
    if n > 0 {
      PatrolForever(Update(e), n - 1);
    }
  }

  /** A patrol is periodic: an enemy walking right from its spawn point is back there,
      walking right, after 48 ticks. */
  lemma PatrolPeriod(x: int, y: int)
    ensures UpdateN(Spawned(x, y), 48) == Spawned(x, y)
  {
    var e := Spawned(x, y);
    assert UpdateN(e, 48) == Enemy(x, y, 1, 1, true, x) by {
      WalkRight(e, 23);
      var a := UpdateN(e, 23);
      assert a == e.(x := x + 23);
      var b := Update(a);
      assert b == Enemy(x + 24, y, -1, -1, true, x);
      UpdateNSplit(e, 23, 1);
      WalkLeft(b, 23);
      var c := UpdateN(b, 23);
      assert c == b.(x := x + 1);
      assert Update(c) == e;
      UpdateNSplit(e, 24, 23);
      UpdateNSplit(e, 47, 1);
    }
  }

  lemma {:induction false} UpdateNSplit(e: Enemy, m: nat, n: nat)
    ensures UpdateN(e, m + n) == UpdateN(UpdateN(e, m), n)
    decreases m
  {
    if m > 0 {
      UpdateNSplit(Update(e), m - 1, n);
    }
  }

  lemma {:induction false} WalkRight(e: Enemy, n: nat)
    requires Patrolling(e) && e.dx == 1 && e.x + n < e.startX + MoveRange
    ensures UpdateN(e, n) == e.(x := e.x + n)
    decreases n
  {
    if n > 0 {
      WalkRight(Update(e), n - 1);
    }
  }

  lemma {:induction false} WalkLeft(e: Enemy, n: nat)
    requires Patrolling(e) && e.dx == -1 && e.x - n > e.startX
    ensures UpdateN(e, n) == e.(x := e.x - n)
    decreases n
  {
    if n > 0 {
      WalkLeft(Update(e), n - 1);
    }
  }
}

=== FILE: game.dfy ===
/** The non-drawing half of `App`: the session state, level start and restart, and one
    tick of `App.update` for each game variant.

    A running tick moves the player, checks the goal, centres the camera on the player
    (kept inside the world), and moves and tests only the enemies near the screen. Once
    the game is over or cleared, the world freezes and only the restart key matters. */
module Game {
  import opened Tiles
  import Enemies
  import opened Players
  import Spawning
  import Snowfall
  import Resting

  /** The screen is 160 pixels wide; the world 360. */
  const ScreenWidth: real := 160.0
  const CameraMax: real := 200.0         // 360 - 160
  /** Reaching x = 312 (tile column 39) clears the game. */
  const GoalX: real := 312.0
  /** Enemies further than this outside the screen are neither moved nor checked for contact. */
  const WindowMargin: real := 64.0

  /** `level` is the tilemap as loaded from the resource file, kept for restarts; `grid`
      is the live tilemap, with the spawn markers erased. The snow fields are only used by
      the christmas variant. */
  datatype Session = Session(level: Grid, grid: Grid, player: Player, enemies: seq<Enemies.Enemy>,
                             cameraX: real, gameOver: bool, gameClear: bool,
                             snows: seq<Snowfall.Flake>, snowTimer: int)

  predicate Running(s: Session) {
    !s.gameOver && !s.gameClear
  }

  predicate CameraOk(s: Session) {
    0.0 <= s.cameraX <= CameraMax
  }

  /** `init_game`: the level reloaded, its enemies spawned, the player at the top-left
      corner, no snow, both flags down and the camera at the left edge. */
  function InitGame(level: Grid): (s: Session)
    ensures s.level == level && Running(s) && s.cameraX == 0.0 && s.snows == [] && s.snowTimer == 0
    ensures s.player == NewPlayer(0.0, 0.0)
    ensures s.enemies == Spawning.SpawnEnemies(level).0 && s.grid == Spawning.SpawnEnemies(level).1
    ensures forall col, row :: !Spawning.IsMarker(s.grid, col, row)
    ensures forall i :: 0 <= i < |s.enemies| ==> Enemies.Patrolling(s.enemies[i])
  {
    var spawned := Spawning.SpawnEnemies(level);
    Session(level, spawned.1, NewPlayer(0.0, 0.0), spawned.0, 0.0, false, false, [], 0)
  }

  /** The camera follows the player, centred on the screen, but never shows beyond
      either end of the world. */
  function Camera(playerX: real): (c: real)
    ensures 0.0 <= c <= CameraMax
    ensures 0.0 <= playerX - ScreenWidth / 2.0 <= CameraMax ==> c == playerX - ScreenWidth / 2.0
    ensures playerX - ScreenWidth / 2.0 < 0.0 ==> c == 0.0
    ensures playerX - ScreenWidth / 2.0 > CameraMax ==> c == CameraMax
  {
    var target := playerX - ScreenWidth / 2.0;
    var c := if target < CameraMax then target else CameraMax;
    if 0.0 < c then c else 0.0
  }

  /** An enemy close enough to the screen to be updated. */
  predicate InWindow(e: Enemies.Enemy, cameraX: real) {
    -WindowMargin <= e.x as real - cameraX <= ScreenWidth + WindowMargin
  }

  /** `Player.check_collision`: the player's and the enemy's boxes overlap. */
  predicate Touches(p: Player, e: Enemies.Enemy) {
    var ddx, ddy := p.x - e.x as real, p.y - e.y as real;
    -8.0 < ddx < 8.0 && -8.0 < ddy < 8.0
  }

  /** Touching is the overlap of the two 8 x 8 boxes: on each axis, each box starts before
      the other one ends. */
  lemma TouchesIffOverlap(p: Player, e: Enemies.Enemy)
    ensures Touches(p, e) <==>
              && p.x < e.x as real + 8.0 && e.x as real < p.x + 8.0
              && p.y < e.y as real + 8.0 && e.y as real < p.y + 8.0
  {
  }

  /** The enemy loop of a tick: in-window enemies are updated and then checked against the
      player; the others are left exactly as they were and never checked. The second
      component reports whether any checked enemy touched the player. */
  function EnemyPass(p: Player, es: seq<Enemies.Enemy>, cameraX: real): (r: (seq<Enemies.Enemy>, bool))
    ensures |r.0| == |es|
    ensures forall i :: 0 <= i < |es| && InWindow(es[i], cameraX) ==> r.0[i] == Enemies.Update(es[i])
    ensures forall i :: 0 <= i < |es| && !InWindow(es[i], cameraX) ==> r.0[i] == es[i]
    ensures r.1 <==> exists i :: 0 <= i < |es| && InWindow(es[i], cameraX) && Touches(p, r.0[i])
  {
    if |es| == 0 then ([], false)
    else
      var e := es[0];
      var e' := if InWindow(e, cameraX) then Enemies.Update(e) else e;
      var hit := InWindow(e, cameraX) && Touches(p, e');
      var rest := EnemyPass(p, es[1..], cameraX);
      assert forall i :: 1 <= i < |es| ==> es[i] == es[1..][i - 1];
      var r := ([e'] + rest.0, hit || rest.1);
      assert forall i :: 1 <= i < |es| ==> r.0[i] == rest.0[i - 1];
      assert rest.1 ==> exists i :: 0 <= i < |es| && InWindow(es[i], cameraX) && Touches(p, r.0[i]) by {
        if rest.1 {
          var k :| 0 <= k < |es[1..]| && InWindow(es[1..][k], cameraX) && Touches(p, rest.0[k]);
          assert InWindow(es[k + 1], cameraX) && Touches(p, r.0[k + 1]);
        }
      }
      r
  }

  /** The shared body of a running tick: player, goal, camera, enemies. A touch marks the
      player dead and the game over; reaching the goal clears the game. */
  function Advance(cfg: Config, s: Session, input: Input): (r: Session)
    ensures r.level == s.level && r.grid == s.grid && r.snows == s.snows && r.snowTimer == s.snowTimer
    ensures CameraOk(r) && r.cameraX == Camera(r.player.x)
    ensures var p := Players.Update(cfg, s.grid, s.player, input);
            r.player == p.(isAlive := r.player.isAlive)
    ensures Running(s) ==> (r.gameClear <==> r.player.x >= GoalX)
    ensures |r.enemies| == |s.enemies|
    ensures forall i :: 0 <= i < |s.enemies| && !InWindow(s.enemies[i], r.cameraX) ==> r.enemies[i] == s.enemies[i]
    ensures forall i :: 0 <= i < |s.enemies| && InWindow(s.enemies[i], r.cameraX) ==>
              r.enemies[i] == Enemies.Update(s.enemies[i])
    ensures Running(s) ==>
              (r.gameOver <==> exists i :: 0 <= i < |s.enemies| && InWindow(s.enemies[i], r.cameraX) && Touches(r.player, r.enemies[i]))
    ensures r.gameOver && !s.gameOver ==> !r.player.isAlive
    ensures !r.gameOver ==> r.player.isAlive == s.player.isAlive
  {
    Resolve(s, Players.Update(cfg, s.grid, s.player, input))
  }

  /** The rest of a running tick once the player `p` has moved. */
  function Resolve(s: Session, p: Player): (r: Session)
    requires p.isAlive == s.player.isAlive
    ensures r.level == s.level && r.grid == s.grid && r.snows == s.snows && r.snowTimer == s.snowTimer
    ensures CameraOk(r) && r.cameraX == Camera(p.x)
    ensures r.player == p.(isAlive := r.player.isAlive)
    ensures r.gameClear <==> s.gameClear || p.x >= GoalX
    ensures |r.enemies| == |s.enemies|
    ensures forall i :: 0 <= i < |s.enemies| && !InWindow(s.enemies[i], r.cameraX) ==> r.enemies[i] == s.enemies[i]
    ensures forall i :: 0 <= i < |s.enemies| && InWindow(s.enemies[i], r.cameraX) ==>
              r.enemies[i] == Enemies.Update(s.enemies[i])
    ensures r.gameOver <==>
              s.gameOver || exists i :: 0 <= i < |s.enemies| && InWindow(s.enemies[i], r.cameraX) && Touches(p, r.enemies[i])
    ensures r.gameOver && !s.gameOver ==> !r.player.isAlive
    ensures !r.gameOver ==> r.player.isAlive == s.player.isAlive
  {
    var cam := Camera(p.x);
    var pass := EnemyPass(p, s.enemies, cam);
    var p' := if pass.1 then p.(isAlive := false) else p;
    s.(player := p', enemies := pass.0, cameraX := cam, gameOver := s.gameOver || pass.1,
       gameClear := s.gameClear || p.x >= GoalX)
  }

  /** main.py's `App.update`. Running: one `Advance`. Over or cleared: frozen, unless the
      restart key was pressed, which starts the level afresh. */
  function MainTick(s: Session, input: Input): (r: Session)
    ensures r.level == s.level
    ensures CameraOk(s) ==> CameraOk(r)
    ensures Running(s) ==> r == Advance(Main, s, input)
    ensures !Running(s) && !input.restartPressed ==> r == s
    ensures !Running(s) && input.restartPressed ==> r == InitGame(s.level)
    ensures Running(s) ==> (r.gameClear <==> r.player.x >= GoalX)
  {
    if Running(s) then Advance(Main, s, input)
    else if input.restartPressed then InitGame(s.level)
    else s
  }

  /** The christmas variant's snow bookkeeping on a running tick: the spawn timer counts
      to 7, which appends the given new flake and restarts the count; then the sweep. */
  function SnowStep(s: Session, flake: Snowfall.Flake): (r: Session)
    requires Snowfall.Fresh(flake)
    ensures r == s.(snows := r.snows, snowTimer := r.snowTimer)
    ensures 0 <= s.snowTimer < Snowfall.SpawnEvery ==> 0 <= r.snowTimer < Snowfall.SpawnEvery
    ensures s.snowTimer + 1 >= Snowfall.SpawnEvery ==>
              r.snowTimer == 0 && r.snows == Snowfall.Sweep(s.grid, s.snows + [flake])
    ensures s.snowTimer + 1 < Snowfall.SpawnEvery ==>
              r.snowTimer == s.snowTimer + 1 && r.snows == Snowfall.Sweep(s.grid, s.snows)
    ensures forall i :: 0 <= i < |r.snows| ==> Snowfall.Keeps(r.snows[i])
  {
    var timer := s.snowTimer + 1;
    var spawn := timer >= Snowfall.SpawnEvery;
    var flakes := if spawn then s.snows + [flake] else s.snows;
    s.(snows := Snowfall.Sweep(s.grid, flakes), snowTimer := if spawn then 0 else timer)
  }

  /** The running part of christmas-game/main.py's `App.update`. */
  function ChristmasAdvance(s: Session, input: Input, flake: Snowfall.Flake): (r: Session)
    requires Snowfall.Fresh(flake)
    ensures r == Advance(Christmas, s, input).(snows := r.snows, snowTimer := r.snowTimer)
    ensures s.snowTimer + 1 >= Snowfall.SpawnEvery ==>
              r.snowTimer == 0 && r.snows == Snowfall.Sweep(s.grid, s.snows + [flake])
    ensures s.snowTimer + 1 < Snowfall.SpawnEvery ==>
              r.snowTimer == s.snowTimer + 1 && r.snows == Snowfall.Sweep(s.grid, s.snows)
    ensures 0 <= s.snowTimer < Snowfall.SpawnEvery ==> 0 <= r.snowTimer < Snowfall.SpawnEvery
    ensures forall i :: 0 <= i < |r.snows| ==> Snowfall.Keeps(r.snows[i])
  {
    SnowStep(Advance(Christmas, s, input), flake)
  }

  /** christmas-game/main.py's `App.update`, as written: the restart test runs after the
      update and looks only at the game-over flag. A cleared game therefore never leaves
      its cleared state, whatever is pressed. `flake` is the flake the tick would create. */
  function ChristmasTick(s: Session, input: Input, flake: Snowfall.Flake): (r: Session)
    requires Snowfall.Fresh(flake)
    ensures r.level == s.level
    ensures CameraOk(s) ==> CameraOk(r)
    ensures 0 <= s.snowTimer < Snowfall.SpawnEvery ==> 0 <= r.snowTimer < Snowfall.SpawnEvery
    ensures Running(s) ==> forall i :: 0 <= i < |r.snows| ==> Snowfall.Keeps(r.snows[i])
    ensures !Running(s) && !input.restartPressed ==> r == s
    ensures s.gameClear && !s.gameOver ==> r == s
    ensures s.gameOver && input.restartPressed ==> r == InitGame(s.level)
    ensures Running(s) && !input.restartPressed ==> r == ChristmasAdvance(s, input, flake)
    ensures Running(s) && input.restartPressed && ChristmasAdvance(s, input, flake).gameOver ==>
              r == InitGame(s.level)
    ensures Running(s) && input.restartPressed && !ChristmasAdvance(s, input, flake).gameOver ==>
              r == ChristmasAdvance(s, input, flake)
    ensures Running(s) ==> (r.gameClear <==> r.player.x >= GoalX) || r == InitGame(s.level)
  {
    var s1 := if Running(s) then ChristmasAdvance(s, input, flake) else s;
    if s1.gameOver && input.restartPressed then InitGame(s.level) else s1
  }

  /** The christmas variant's tick with the restart test the clear screen advertises
      ("PRESS R TO RESTART"): either end state restarts on the restart key. */
  function ChristmasTickRestartable(s: Session, input: Input, flake: Snowfall.Flake): (r: Session)
    requires Snowfall.Fresh(flake)
    ensures r.level == s.level
    ensures CameraOk(s) ==> CameraOk(r)
    ensures 0 <= s.snowTimer < Snowfall.SpawnEvery ==> 0 <= r.snowTimer < Snowfall.SpawnEvery
    ensures !Running(s) && !input.restartPressed ==> r == s
    ensures !Running(s) && input.restartPressed ==> r == InitGame(s.level)
    ensures Running(s) && !input.restartPressed ==> r == ChristmasAdvance(s, input, flake)
    ensures var a := ChristmasAdvance(s, input, flake);
            Running(s) && input.restartPressed && (a.gameOver || a.gameClear) ==> r == InitGame(s.level)
    ensures var a := ChristmasAdvance(s, input, flake);
            Running(s) && input.restartPressed && !a.gameOver && !a.gameClear ==> r == a
  {
    var s1 := if Running(s) then ChristmasAdvance(s, input, flake) else s;
    if (s1.gameOver || s1.gameClear) && input.restartPressed then InitGame(s.level) else s1
  }

  /** Every flake a run of ticks may create satisfies `Snowfall.Fresh`. */
  predicate AllFresh(flakes: seq<Snowfall.Flake>) {
    forall i :: 0 <= i < |flakes| ==> Snowfall.Fresh(flakes[i])
  }

  /** Consecutive christmas ticks, the i-th with keys `inputs[i]` and new flake `flakes[i]`. */
  function ChristmasTicks(s: Session, inputs: seq<Input>, flakes: seq<Snowfall.Flake>): Session
    requires |inputs| == |flakes| && AllFresh(flakes)
    decreases |inputs|
  {
    if |inputs| == 0 then s
    else ChristmasTicks(ChristmasTick(s, inputs[0], flakes[0]), inputs[1..], flakes[1..])
  }

  /** As written, a cleared christmas game is stuck: no sequence of ticks, whatever keys
      each one sees (the restart key included), ever changes it. */
  lemma {:induction false} ChristmasClearIsFinal(s: Session, inputs: seq<Input>, flakes: seq<Snowfall.Flake>)
    requires |inputs| == |flakes| && AllFresh(flakes)
    requires s.gameClear && !s.gameOver
    ensures ChristmasTicks(s, inputs, flakes) == s
    decreases |inputs|
  {
    if |inputs| > 0 {
      assert AllFresh(flakes[1..]) by {
        forall i | 0 <= i < |flakes[1..]| ensures Snowfall.Fresh(flakes[1..][i]) {
          assert flakes[1..][i] == flakes[i + 1];
        }
      }
      ChristmasClearIsFinal(s, inputs[1..], flakes[1..]);
    }
  }

  /** With the advertised restart test, the restart key leaves the cleared screen for a
      fresh game, just as it does in main.py. */
  lemma RestartableClearRestarts(s: Session, flake: Snowfall.Flake)
    requires Snowfall.Fresh(flake)
    requires s.gameClear
    ensures var input := NoKeys.(restartPressed := true);
            ChristmasTickRestartable(s, input, flake) == InitGame(s.level)
            && MainTick(s, input) == InitGame(s.level)
            && Running(ChristmasTickRestartable(s, input, flake))
  {
  }

  /** What holds of every session from the start of a level on: the camera inside the
      world, the snow timer below its period, no spawn marker left in the live tilemap,
      every enemy on its patrol, every listed flake still falling inside the world, the
      player's jump, dash and speed bookkeeping consistent, its position inside the map
      and, while the game runs, left of the goal. When the level's top row holds no ground,
      the player's box is also clear of ground. */
  ghost predicate Sound(cfg: Config, s: Session) {
    && CameraOk(s)
    && 0 <= s.snowTimer < Snowfall.SpawnEvery
    && (forall col, row :: !Spawning.IsMarker(s.grid, col, row))
    && (forall i :: 0 <= i < |s.enemies| ==> Enemies.Patrolling(s.enemies[i]))
    && (forall i :: 0 <= i < |s.snows| ==> Snowfall.Keeps(s.snows[i]))
    && PlayerSound(cfg, s.grid, s.player)
    && (Running(s) ==> s.player.x < GoalX)
  }

  /** The player's part of `Sound`, which does not depend on whether it is alive. */
  predicate PlayerSound(cfg: Config, g: Grid, p: Player) {
    && JumpsOk(cfg, p) && Bounded(cfg, p)
    && 0.0 <= p.x <= MaxX
    && (Resting.TopRowFree(g) ==> Clear(g, p.x, p.y))
  }

  lemma AliveIsIrrelevant(cfg: Config, g: Grid, p: Player, alive: bool)
    requires PlayerSound(cfg, g, p)
    ensures PlayerSound(cfg, g, p.(isAlive := alive))
  {
  }

  /** The player's part of `Sound` survives the player's update in a running session. */
  lemma UpdateKeepsPlayerSound(cfg: Config, g: Grid, p: Player, input: Input)
    requires ValidConfig(cfg) && PlayerSound(cfg, g, p) && p.x < GoalX
    ensures PlayerSound(cfg, g, Players.Update(cfg, g, p, input))
  {
    UpdateKeepsBounded(cfg, g, p, input);
    if Resting.TopRowFree(g) {
      Resting.TickKeepsClear(cfg, g, p, input);
    }
  }

  /** A fresh level is sound for either variant. */
  lemma InitIsSound(cfg: Config, level: Grid)
    requires ValidConfig(cfg)
    ensures Sound(cfg, InitGame(level))
  {
    var s := InitGame(level);
    if Resting.TopRowFree(s.grid) {
      Resting.AboveTopClear(s.grid, 0.0, 0.0);
    }
  }

  /** A running tick of either variant keeps the enemies on patrol and the player sound. */
  lemma AdvanceKeepsSound(cfg: Config, s: Session, input: Input)
    requires ValidConfig(cfg) && Sound(cfg, s) && Running(s)
    ensures var r := Advance(cfg, s, input);
            Sound(cfg, r.(snows := s.snows, snowTimer := s.snowTimer)) && r.snows == s.snows && r.snowTimer == s.snowTimer
  {
    var p := Players.Update(cfg, s.grid, s.player, input);
    UpdateKeepsPlayerSound(cfg, s.grid, s.player, input);
    ResolveKeepsSound(cfg, s, p);
  }

  /** The rest of a running tick keeps the session sound once the moved player is. */
  lemma ResolveKeepsSound(cfg: Config, s: Session, p: Player)
    requires Sound(cfg, s) && Running(s) && PlayerSound(cfg, s.grid, p) && p.isAlive == s.player.isAlive
    ensures var r := Resolve(s, p);
            Sound(cfg, r.(snows := s.snows, snowTimer := s.snowTimer))
  {
    var r := Resolve(s, p);
    AliveIsIrrelevant(cfg, s.grid, p, r.player.isAlive);
    forall i | 0 <= i < |r.enemies|
      ensures Enemies.Patrolling(r.enemies[i])
    {
      assert Enemies.Patrolling(s.enemies[i]);
    }
  }

  /** main.py's update keeps every session of a level sound. */
  lemma MainTickKeepsSound(s: Session, input: Input)
    requires Sound(Main, s)
    ensures Sound(Main, MainTick(s, input))
  {
    if Running(s) {
      AdvanceKeepsSound(Main, s, input);
    } else if input.restartPressed {
      InitIsSound(Main, s.level);
    }
  }

  /** The christmas variant's update, as written and with the corrected restart test,
      keeps every session of a level sound. */
  lemma ChristmasTickKeepsSound(s: Session, input: Input, flake: Snowfall.Flake)
    requires Snowfall.Fresh(flake)
    requires Sound(Christmas, s)
    ensures Sound(Christmas, ChristmasTick(s, input, flake))
    ensures Sound(Christmas, ChristmasTickRestartable(s, input, flake))
  {
    if Running(s) {
      ChristmasAdvanceKeepsSound(s, input, flake);
    }
    InitIsSound(Christmas, s.level);
  }

  /** The running part of the christmas tick keeps the session sound. */
  lemma ChristmasAdvanceKeepsSound(s: Session, input: Input, flake: Snowfall.Flake)
    requires Snowfall.Fresh(flake)
    requires Sound(Christmas, s) && Running(s)
    ensures Sound(Christmas, ChristmasAdvance(s, input, flake))
  {
    AdvanceKeepsSound(Christmas, s, input);
    var a := Advance(Christmas, s, input).(snows := s.snows, snowTimer := s.snowTimer);
    var r := ChristmasAdvance(s, input, flake);
    assert r == a.(snows := r.snows, snowTimer := r.snowTimer);
    SoundWithSnow(Christmas, a, r.snows, r.snowTimer);
  }

  /** `Sound` looks at the snow only through the timer's range and each flake's own state. */
  lemma SoundWithSnow(cfg: Config, a: Session, snows: seq<Snowfall.Flake>, timer: int)
    requires Sound(cfg, a) && 0 <= timer < Snowfall.SpawnEvery
    requires forall i :: 0 <= i < |snows| ==> Snowfall.Keeps(snows[i])
    ensures Sound(cfg, a.(snows := snows, snowTimer := timer))
  {
  }

  /** In a running session the player is left of the goal with its speeds `Bounded`, so a
      tick that starts with the player's box clear of ground, inside the level's vertical
      extent, ends with it clear of ground, whatever the level. */
  lemma RunningTickKeepsClear(cfg: Config, s: Session, input: Input)
    requires Sound(cfg, s) && Running(s)
    requires 0.0 <= s.player.y && Clear(s.grid, s.player.x, s.player.y)
    ensures var r := Advance(cfg, s, input); Clear(r.grid, r.player.x, r.player.y)
  {
    Resting.TickKeepsClear(cfg, s.grid, s.player, input);
  }
}

=== FILE: players.dfy ===
/** The player: one tick of `Player.update`, shared by both game variants.

    The variants differ in three settings, gathered in `Config`: how many jumps are
    allowed before landing, whether horizontal motion accelerates with friction or is
    a constant speed, and whether the dash exists. The collision code is identical. */
module Players {
  import opened Tiles

  datatype Movement = Accelerated | ConstantSpeed

  datatype Config = Config(maxJumps: int, movement: Movement, dashEnabled: bool)

  /** main.py: triple jump, acceleration with friction, dash. */
  const Main: Config := Config(3, Accelerated, true)

  /** christmas-game/main.py: single jump, constant speed, no dash. */
  const Christmas: Config := Config(1, ConstantSpeed, false)

  predicate ValidConfig(cfg: Config) {
    1 <= cfg.maxJumps
  }

  const JumpStrength: real := -4.5
  const JumpCutOff: real := -2.0
  const Gravity: real := 0.35
  const MaxFallSpeed: real := 6.0
  const Acceleration: real := 0.5
  const MaxSpeed: real := 3.0
  const Friction: real := 0.85
  const MoveSpeed: real := 1.5
  const DashSpeed: real := 6.0           // twice the maximum speed
  const DashTicks: int := 10
  const DashCooldownTicks: int := 30
  /** The right-most x the player may have: the 360 pixel world minus the 8 pixel body. */
  const MaxX: real := 352.0

  /** The keys polled during one tick: `left`, `right` and `jumpHeld` are held keys,
      the others report a press on this frame. */
  datatype Input = Input(left: bool, right: bool, jumpPressed: bool, jumpHeld: bool,
                         dashPressed: bool, restartPressed: bool)

  const NoKeys: Input := Input(false, false, false, false, false, false)

  /** `direction` is 1 facing right and -1 facing left. The dash fields stay at their
      initial values in the variant without a dash. */
  datatype Player = Player(x: real, y: real, dx: real, dy: real,
                           isFalling: bool, onGround: bool, direction: int,
                           jumpCount: int,
                           isDashing: bool, dashCooldown: int, dashDuration: int,
                           isAlive: bool)

  function NewPlayer(x: real, y: real): (p: Player)
    ensures p.x == x && p.y == y && p.dx == 0.0 && p.dy == 0.0 && p.isAlive
    ensures p.jumpCount == 0 && !p.onGround && !p.isFalling && p.direction == 1
    ensures p.dashCooldown == 0 && p.dashDuration == 0
    ensures forall cfg :: ValidConfig(cfg) ==> JumpsOk(cfg, p)
    ensures DashOk(p) && !p.isDashing
    ensures forall cfg :: Bounded(cfg, p)
  {
    Player(x, y, 0.0, 0.0, false, false, 1, 0, false, 0, 0, true)
  }

  /** Jump charges: never negative, never above the maximum, and spent charges are
      only ever kept while airborne. */
  predicate JumpsOk(cfg: Config, p: Player) {
    0 <= p.jumpCount <= cfg.maxJumps && (p.onGround ==> p.jumpCount == 0)
  }

  /** Dash timers: the dash never outlasts its cooldown, which is at most 30 ticks. */
  predicate DashOk(p: Player) {
    0 <= p.dashDuration <= p.dashCooldown <= DashCooldownTicks
  }

  /** Horizontal speed: at most 3 outside a dash. A dash starts at 6 with 10 ticks left,
      and each of its ticks can add 0.5 while an arrow is held, so with d ticks left the
      speed is at most 11 - d/2. */
  predicate SpeedOk(p: Player) {
    if p.isDashing then
      p.dashDuration <= DashTicks
      && -(11.0 - p.dashDuration as real / 2.0) <= p.dx <= 11.0 - p.dashDuration as real / 2.0
    else -MaxSpeed <= p.dx <= MaxSpeed
  }

  /** Everything a tick keeps about the player's own state: it faces left or right, its
      vertical speed lies between the jump impulse and the fall cap, its dash timers and
      horizontal speed are consistent, and it dashes only in the variant with a dash. */
  predicate Bounded(cfg: Config, p: Player) {
    && (p.direction == 1 || p.direction == -1)
    && JumpStrength <= p.dy <= MaxFallSpeed
    && DashOk(p) && SpeedOk(p)
    && (cfg.dashEnabled || !p.isDashing)
  }

  // ---------------------------------------------------------------------------------
  // The stages of one tick, in the order the source runs them.

  /** The cooldown and the dash each count down by one while positive; a dash whose
      duration has run out ends. */
  function TickDashTimers(p: Player): (r: Player)
    ensures r == p.(dashCooldown := r.dashCooldown, dashDuration := r.dashDuration, isDashing := r.isDashing)
    ensures r.isDashing <==> p.isDashing && p.dashDuration > 0
    ensures p.dashCooldown > 0 ==> r.dashCooldown == p.dashCooldown - 1
    ensures p.dashCooldown <= 0 ==> r.dashCooldown == p.dashCooldown
    ensures p.dashDuration > 0 ==> r.dashDuration == p.dashDuration - 1
    ensures p.dashDuration <= 0 ==> r.dashDuration == p.dashDuration
    ensures DashOk(p) ==> DashOk(r)
  {
    var p1 := if p.dashCooldown > 0 then p.(dashCooldown := p.dashCooldown - 1) else p;
    if p1.dashDuration > 0 then p1.(dashDuration := p1.dashDuration - 1) else p1.(isDashing := false)
  }

  /** The arrow keys: left wins over right; the facing only changes while an arrow is held.
      With constant speed the velocity is one of -1.5, 0 and 1.5; with acceleration a held
      arrow adds 0.5 toward its side and no arrow lets friction shrink the velocity. */
  function HorizontalInput(cfg: Config, p: Player, input: Input): (r: Player)
    ensures r == p.(dx := r.dx, direction := r.direction)
    ensures input.left ==> r.direction == -1
    ensures !input.left && input.right ==> r.direction == 1
    ensures !input.left && !input.right ==> r.direction == p.direction
    ensures cfg.movement == ConstantSpeed ==> r.dx == MoveSpeed * r.direction as real || (r.dx == 0.0 && !input.left && !input.right)
    ensures cfg.movement == ConstantSpeed && (input.left || input.right) ==> r.dx == MoveSpeed * r.direction as real
    ensures cfg.movement == Accelerated && (input.left || input.right) ==> r.dx == p.dx + Acceleration * r.direction as real
    ensures cfg.movement == Accelerated && !input.left && !input.right ==> r.dx == Friction * p.dx
    ensures cfg.movement == Accelerated && !input.left && !input.right ==>
              (0.0 <= p.dx ==> 0.0 <= r.dx <= p.dx) && (p.dx <= 0.0 ==> p.dx <= r.dx <= 0.0)
  {
    match cfg.movement
    case Accelerated =>
      if input.left then p.(dx := p.dx - Acceleration, direction := -1)
      else if input.right then p.(dx := p.dx + Acceleration, direction := 1)
      else p.(dx := p.dx * Friction)
    case ConstantSpeed =>
      if input.left then p.(dx := -MoveSpeed, direction := -1)
      else if input.right then p.(dx := MoveSpeed, direction := 1)
      else p.(dx := 0.0)
  }

  /** With acceleration, the speed is held to [-3, 3] unless a dash is under way. */
  function LimitSpeed(cfg: Config, p: Player): (r: Player)
    ensures r == p.(dx := r.dx)
    ensures cfg.movement == Accelerated && !p.isDashing ==> -MaxSpeed <= r.dx <= MaxSpeed
    ensures -MaxSpeed <= p.dx <= MaxSpeed || p.isDashing || cfg.movement == ConstantSpeed ==> r == p
    ensures p.dx > MaxSpeed && cfg.movement == Accelerated && !p.isDashing ==> r.dx == MaxSpeed
    ensures p.dx < -MaxSpeed && cfg.movement == Accelerated && !p.isDashing ==> r.dx == -MaxSpeed
  {
    if cfg.movement == Accelerated && !p.isDashing then
      p.(dx := if p.dx < -MaxSpeed then -MaxSpeed else if p.dx > MaxSpeed then MaxSpeed else p.dx)
    else p
  }

  /** A dash starts only when it exists, is pressed and the cooldown has run out. */
  predicate DashStarts(cfg: Config, p: Player, input: Input) {
    cfg.dashEnabled && input.dashPressed && p.dashCooldown <= 0
  }

  /** Starting a dash: 10 ticks of dashing, 30 of cooldown, and twice the maximum speed
      in the facing direction. */
  function StartDash(cfg: Config, p: Player, input: Input): (r: Player)
    ensures !DashStarts(cfg, p, input) ==> r == p
    ensures DashStarts(cfg, p, input) ==>
              r == p.(isDashing := true, dashDuration := DashTicks, dashCooldown := DashCooldownTicks, dx := r.dx)
              && r.dx == p.direction as real * DashSpeed
    ensures DashOk(p) ==> DashOk(r)
  {
    if DashStarts(cfg, p, input) then
      p.(isDashing := true, dashDuration := DashTicks, dashCooldown := DashCooldownTicks,
         dx := p.direction as real * MaxSpeed * 2.0)
    else p
  }

  /** The jump key: on the ground it spends the first charge; in the air it spends one
      more while any remain; with all charges spent it does nothing. */
  function Jump(cfg: Config, p: Player, input: Input): (r: Player)
    ensures !input.jumpPressed ==> r == p
    ensures input.jumpPressed && p.onGround ==>
              r == p.(dy := JumpStrength, isFalling := true, onGround := false, jumpCount := 1)
    ensures input.jumpPressed && !p.onGround && p.jumpCount < cfg.maxJumps ==>
              r == p.(dy := JumpStrength, jumpCount := p.jumpCount + 1)
    ensures !p.onGround && p.jumpCount >= cfg.maxJumps ==> r == p
    ensures ValidConfig(cfg) && JumpsOk(cfg, p) ==> JumpsOk(cfg, r)
  {
    if input.jumpPressed then
      if p.onGround then
        p.(dy := JumpStrength, isFalling := true, onGround := false, jumpCount := 1)
      else if p.jumpCount < cfg.maxJumps then
        p.(dy := JumpStrength, jumpCount := p.jumpCount + 1)
      else p
    else p
  }

  /** Variable jump height: with the jump key released, a rise faster than 2 pixels per
      tick is cut to 2. */
  function CutOff(p: Player, input: Input): (r: Player)
    ensures r == p.(dy := r.dy)
    ensures input.jumpHeld ==> r == p
    ensures !input.jumpHeld ==> r.dy >= JumpCutOff
    ensures r.dy == p.dy || (r.dy == JumpCutOff && p.dy < JumpCutOff)
  {
    if !input.jumpHeld && p.dy < JumpCutOff then p.(dy := JumpCutOff) else p
  }

  /** Gravity acts only off the ground, and never speeds a fall beyond 6 pixels per tick. */
  function ApplyGravity(p: Player): (r: Player)
    ensures p.onGround ==> r == p
    ensures !p.onGround ==> r == p.(dy := r.dy) && r.dy <= MaxFallSpeed && r.dy <= p.dy + Gravity
    ensures !p.onGround && p.dy + Gravity <= MaxFallSpeed ==> r.dy == p.dy + Gravity
    ensures !p.onGround && p.dy + Gravity > MaxFallSpeed ==> r.dy == MaxFallSpeed
  {
    if !p.onGround then
      var dy := p.dy + Gravity;
      p.(dy := if dy < MaxFallSpeed then dy else MaxFallSpeed)
    else p
  }

  /** The horizontal pass: the body moves by dx only into a clear box; a blocked move
      leaves x where it was and stops the body. */
  function MoveHorizontally(g: Grid, p: Player): (r: Player)
    ensures Clear(g, p.x + p.dx, p.y) ==> r == p.(x := p.x + p.dx)
    ensures !Clear(g, p.x + p.dx, p.y) ==> r == p.(dx := 0.0)
    ensures r.x != p.x ==> Clear(g, r.x, r.y)
  {
    if !CheckTileCollision(g, p.x + p.dx, p.y).hit then p.(x := p.x + p.dx) else p.(dx := 0.0)
  }

  /** Landing: the body's bottom edge is put on the top of the ground row, the fall stops
      and all jump charges come back. */
  function Land(p: Player, groundY: int): (r: Player)
    ensures r.y + 8.0 == groundY as real && r.dy == 0.0 && r.onGround && !r.isFalling && r.jumpCount == 0
    ensures r == p.(y := r.y, dy := 0.0, isFalling := false, onGround := true, jumpCount := 0)
  {
    p.(y := groundY as real - 8.0, dy := 0.0, isFalling := false, onGround := true, jumpCount := 0)
  }

  /** The vertical pass, at the x the horizontal pass left.
      - A blocked move downward lands on the row that blocked it.
      - A blocked move upward (or a blocked rest) is pushed below that row and stops; its
        ground flag is left alone.
      - A clear move is committed; if it went down and the box one pixel lower would be
        blocked, the body lands on that row instead. Any other clear move leaves the
        body airborne, even one at rest. */
  function MoveVertically(g: Grid, p: Player): (r: Player)
    ensures r.x == p.x && r.dx == p.dx && r.direction == p.direction && r.isAlive == p.isAlive
    ensures r.isDashing == p.isDashing && r.dashCooldown == p.dashCooldown && r.dashDuration == p.dashDuration
    ensures var c := CheckTileCollision(g, p.x, p.y + p.dy);
            c.hit && p.dy > 0.0 ==> r == Land(p, c.groundY)
    ensures var c := CheckTileCollision(g, p.x, p.y + p.dy);
            c.hit && p.dy <= 0.0 ==> r == p.(y := c.groundY as real + 8.0, dy := 0.0)
    ensures var c := CheckTileCollision(g, p.x, p.y + p.dy);
            var below := CheckTileCollision(g, p.x, p.y + p.dy + 1.0);
            !c.hit && p.dy > 0.0 && below.hit ==> r == Land(p, below.groundY)
    ensures var c := CheckTileCollision(g, p.x, p.y + p.dy);
            var below := CheckTileCollision(g, p.x, p.y + p.dy + 1.0);
            !c.hit && (p.dy <= 0.0 || !below.hit) ==>
              r == p.(y := p.y + p.dy, onGround := false, isFalling := true)
    ensures r.jumpCount == p.jumpCount || (r.jumpCount == 0 && r.onGround)
    ensures r.onGround && !p.onGround ==> r.jumpCount == 0
    ensures r.dy == p.dy || r.dy == 0.0
  {
    var ny := p.y + p.dy;
    var c := CheckTileCollision(g, p.x, ny);
    if !c.hit then
      if p.dy > 0.0 then
        var below := CheckTileCollision(g, p.x, ny + 1.0);
        if below.hit then Land(p, below.groundY)
        else p.(y := ny, onGround := false, isFalling := true)
      else p.(y := ny, onGround := false, isFalling := true)
    else if p.dy > 0.0 then Land(p, c.groundY)
    else p.(y := c.groundY as real + 8.0, dy := 0.0)
  }

  /** The body is kept inside the 360 pixel wide world. */
  function ClampX(p: Player): (r: Player)
    ensures r == p.(x := r.x)
    ensures 0.0 <= r.x <= MaxX
    ensures 0.0 <= p.x <= MaxX ==> r == p
    ensures p.x < 0.0 ==> r.x == 0.0
    ensures p.x > MaxX ==> r.x == MaxX
  {
    var x := if p.x < MaxX then p.x else MaxX;
    p.(x := if 0.0 < x then x else 0.0)
  }

  /** The horizontal half of the input phase: dash timers, arrow keys, speed limit, dash. */
  function Run(cfg: Config, p: Player, input: Input): (r: Player)
    ensures r == p.(dx := r.dx, direction := r.direction, isDashing := r.isDashing,
                    dashCooldown := r.dashCooldown, dashDuration := r.dashDuration)
    ensures DashOk(p) ==> DashOk(r)
    ensures !r.isDashing ==> -MaxSpeed <= r.dx <= MaxSpeed
    ensures !cfg.dashEnabled ==> r.isDashing == p.isDashing && r.dashCooldown == p.dashCooldown
                                 && r.dashDuration == p.dashDuration
    ensures cfg.movement == ConstantSpeed && !cfg.dashEnabled ==> r.dx == 0.0 || r.dx == MoveSpeed || r.dx == -MoveSpeed
    ensures cfg.dashEnabled && DashOk(p) ==>
              (r.dashCooldown == DashCooldownTicks <==> input.dashPressed && p.dashCooldown <= 1)
    ensures cfg.dashEnabled && DashOk(p) && r.dashCooldown == DashCooldownTicks ==>
              r.isDashing && r.dashDuration == DashTicks
  {
    var p1 := if cfg.dashEnabled then TickDashTimers(p) else p;
    var p2 := HorizontalInput(cfg, p1, input);
    var p3 := LimitSpeed(cfg, p2);
    StartDash(cfg, p3, input)
  }

  /** The vertical half of the input phase: jump, jump cut-off, gravity. */
  function Rise(cfg: Config, p: Player, input: Input): (r: Player)
    ensures r == p.(dy := r.dy, isFalling := r.isFalling, onGround := r.onGround, jumpCount := r.jumpCount)
    ensures ValidConfig(cfg) && JumpsOk(cfg, p) ==> JumpsOk(cfg, r)
    ensures JumpsOk(cfg, p) ==> r.jumpCount >= p.jumpCount
    ensures !r.onGround ==> r.dy <= MaxFallSpeed
  {
    ApplyGravity(CutOff(Jump(cfg, p, input), input))
  }

  /** The movement phase: horizontal pass, vertical pass, clamp to the world. */
  function Move(g: Grid, p: Player): (r: Player)
    ensures 0.0 <= r.x <= MaxX
    ensures r.dx == p.dx || r.dx == 0.0
    ensures r.direction == p.direction && r.isAlive == p.isAlive
    ensures r.isDashing == p.isDashing && r.dashCooldown == p.dashCooldown && r.dashDuration == p.dashDuration
    ensures r.jumpCount == p.jumpCount || (r.jumpCount == 0 && r.onGround)
    ensures r.dy == p.dy || r.dy == 0.0
    ensures forall cfg :: JumpsOk(cfg, p) ==> JumpsOk(cfg, r)
  {
    ClampX(MoveVertically(g, MoveHorizontally(g, p)))
  }

  /** `Player.update`: one tick of the player, from input to the final clamp. */
  function Update(cfg: Config, g: Grid, p: Player, input: Input): (r: Player)
    ensures 0.0 <= r.x <= MaxX
    ensures r.isAlive == p.isAlive
    ensures ValidConfig(cfg) && JumpsOk(cfg, p) ==> JumpsOk(cfg, r)
    ensures JumpsOk(cfg, p) && r.jumpCount < p.jumpCount ==> r.onGround && r.jumpCount == 0
    ensures DashOk(p) ==> DashOk(r)
    ensures !r.isDashing ==> -MaxSpeed <= r.dx <= MaxSpeed
    ensures !cfg.dashEnabled ==> r.isDashing == p.isDashing && r.dashCooldown == p.dashCooldown
                                 && r.dashDuration == p.dashDuration
    ensures cfg.movement == ConstantSpeed && !cfg.dashEnabled ==> r.dx == 0.0 || r.dx == MoveSpeed || r.dx == -MoveSpeed
    ensures cfg.dashEnabled && DashOk(p) ==>
              (r.dashCooldown == DashCooldownTicks <==> input.dashPressed && p.dashCooldown <= 1)
    ensures cfg.dashEnabled && DashOk(p) && r.dashCooldown == DashCooldownTicks ==>
              r.isDashing && r.dashDuration == DashTicks
  {
    Move(g, Rise(cfg, Run(cfg, p, input), input))
  }

  /** The christmas variant's tick: the arrow keys set the speed outright (left winning
      over right) and a wall stops it, the dash fields never change, and at most one jump
      charge is ever spent. */
  lemma ChristmasUpdate(g: Grid, p: Player, input: Input)
    requires JumpsOk(Christmas, p)
    ensures var r := Update(Christmas, g, p, input);
            && (input.left ==> r.direction == -1 && (r.dx == -MoveSpeed || r.dx == 0.0))
            && (!input.left && input.right ==> r.direction == 1 && (r.dx == MoveSpeed || r.dx == 0.0))
            && (!input.left && !input.right ==> r.direction == p.direction && r.dx == 0.0)
            && r.isDashing == p.isDashing && r.dashCooldown == p.dashCooldown && r.dashDuration == p.dashDuration
            && 0 <= r.jumpCount <= 1
  {
    var q := Run(Christmas, p, input);
    var h := HorizontalInput(Christmas, p, input);
    assert q == h;
    var m := Rise(Christmas, q, input);
    assert m.dx == h.dx && m.direction == h.direction;
  }

  /** The horizontal input phase keeps `Bounded`: outside a dash the limit holds the
      speed to 3, a dash under way gains at most 0.5 per tick while its remaining time
      drops by one, and a new dash starts at 6 with 10 ticks to go. */
  lemma RunKeepsBounded(cfg: Config, p: Player, input: Input)
    requires Bounded(cfg, p)
    ensures Bounded(cfg, Run(cfg, p, input))
  {
    var p1 := if cfg.dashEnabled then TickDashTimers(p) else p;
    assert p1.isDashing ==>
             p1.dashDuration + 1 <= DashTicks
             && -(10.5 - p1.dashDuration as real / 2.0) <= p1.dx <= 10.5 - p1.dashDuration as real / 2.0;
    var p2 := HorizontalInput(cfg, p1, input);
    var p3 := LimitSpeed(cfg, p2);
    assert SpeedOk(p3);
    assert Run(cfg, p, input) == StartDash(cfg, p3, input);
  }

  /** The vertical speed stays between the jump impulse and the fall-speed cap. */
  lemma RiseSpeedBound(cfg: Config, p: Player, input: Input)
    requires JumpStrength <= p.dy <= MaxFallSpeed
    ensures JumpStrength <= Rise(cfg, p, input).dy <= MaxFallSpeed
  {
    assert Rise(cfg, p, input) == ApplyGravity(CutOff(Jump(cfg, p, input), input));
  }

  /** A whole tick keeps `Bounded`: in particular the horizontal speed never exceeds 11
      pixels per tick, the most a dash with an arrow held in its direction reaches. */
  lemma UpdateKeepsBounded(cfg: Config, g: Grid, p: Player, input: Input)
    requires Bounded(cfg, p)
    ensures Bounded(cfg, Update(cfg, g, p, input))
    ensures -11.0 <= Update(cfg, g, p, input).dx <= 11.0
  {
    RunKeepsBounded(cfg, p, input);
    var q := Run(cfg, p, input);
    RiseSpeedBound(cfg, q, input);
    var m := Rise(cfg, q, input);
    assert Bounded(cfg, m);
    assert Update(cfg, g, p, input) == Move(g, m);
  }
}

=== FILE: resting.dfy ===
/** How one tick leaves a body relative to the ground. Most lemmas are about bodies
    inside the level's vertical extent (y >= 0, where truncation and flooring agree);
    above the map top the probe sees only the top row, and the lemmas there ask for a
    top row without ground.

    The source has two landing paths: the direct hit, and the one-pixel look-ahead snap
    after a clear move. Both end in the same kind of place: a clear box whose bottom edge
    sits exactly on the top of the ground row below it. */
module Resting {
  import opened Tiles
  import opened Players

  /** Neither column of the body has ground in `row`. */
  predicate RowClear(g: Grid, x: real, row: int) {
    !SolidAt(g, TileOf(x), row) && !SolidAt(g, TileOf(x + 7.0), row)
  }

  /** The body at (x, y) rests on ground: its box is clear, and the box one pixel lower is
      blocked by a row whose top is the body's bottom edge. */
  predicate RestsOn(g: Grid, x: real, y: real) {
    && Clear(g, x, y)
    && var below := CheckTileCollision(g, x, y + 1.0);
       below.hit && below.groundY as real == y + 8.0
  }

  /** For y >= 0 the box spans one row, or two adjacent ones. */
  lemma BoxRows(y: real)
    requires 0.0 <= y
    ensures TileOf(y) <= TileOf(y + 7.0) <= TileOf(y) + 1
    ensures 0 <= TileOf(y)
  {
  }

  /** A box whose top edge is on a row boundary spans exactly that row. */
  lemma AlignedBox(k: int)
    requires 0 <= k
    ensures TileOf(8.0 * k as real) == k && TileOf(8.0 * k as real + 7.0) == k
    ensures TileOf(8.0 * k as real + 1.0) == k && TileOf(8.0 * k as real + 8.0) == k + 1
  {
  }

  /** A box landed on `row` (bottom edge on the row's top) rests there, provided the row
      above is clear and `row` has ground under one of the body's columns. */
  lemma LandedRests(g: Grid, x: real, row: int)
    requires 1 <= row
    requires RowClear(g, x, row - 1) && !RowClear(g, x, row)
    ensures RestsOn(g, x, 8.0 * row as real - 8.0)
  {
    var y := 8.0 * row as real - 8.0;
    AlignedBox(row - 1);
    assert y == 8.0 * (row - 1) as real;
    assert y + 1.0 + 7.0 == 8.0 * row as real;
  }

  /** The box at (x, y) is clear exactly when its top and bottom rows are. */
  lemma ClearByRows(g: Grid, x: real, y: real)
    ensures Clear(g, x, y) <==> RowClear(g, x, TileOf(y)) && RowClear(g, x, TileOf(y + 7.0))
    ensures !Clear(g, x, y) ==>
              CheckTileCollision(g, x, y).groundY == 8 * (if RowClear(g, x, TileOf(y)) then TileOf(y + 7.0) else TileOf(y))
  {
  }

  /** A direct hit while falling less than a tile from a clear place is always a hit on
      the row just below the body's bottom row, and the landing place rests on it. */
  lemma DirectHitRests(g: Grid, x: real, y: real, dy: real)
    requires 0.0 <= y && 0.0 < dy <= 7.0 && Clear(g, x, y) && !Clear(g, x, y + dy)
    ensures RestsOn(g, x, CheckTileCollision(g, x, y + dy).groundY as real - 8.0)
  {
    var ny := y + dy;
    BoxRows(y);
    BoxRows(ny);
    TileOfMonotonic(y, ny);
    TileOfMonotonic(ny, y + 7.0);
    TileOfMonotonic(y + 7.0, ny + 7.0);
    ClearByRows(g, x, y);
    ClearByRows(g, x, ny);
    var row := TileOf(ny + 7.0);
    assert TileOf(ny) == TileOf(y) || TileOf(ny) == TileOf(y + 7.0);
    assert row == TileOf(y + 7.0) + 1;
    LandedRests(g, x, row);
  }

  /** The look-ahead probe of a clear box only ever hits the row just below it, and only
      when the box is less than a pixel above that row; the snapped place rests on it. */
  lemma SnapRests(g: Grid, x: real, ny: real)
    requires 0.0 <= ny && Clear(g, x, ny) && !Clear(g, x, ny + 1.0)
    ensures RestsOn(g, x, CheckTileCollision(g, x, ny + 1.0).groundY as real - 8.0)
  {
    BoxRows(ny);
    BoxRows(ny + 1.0);
    TileOfMonotonic(ny, ny + 1.0);
    TileOfMonotonic(ny + 1.0, ny + 7.0);
    TileOfMonotonic(ny + 7.0, ny + 8.0);
    ClearByRows(g, x, ny);
    ClearByRows(g, x, ny + 1.0);
    assert ny + 1.0 + 7.0 == ny + 8.0;
    var row := TileOf(ny + 8.0);
    assert row == TileOf(ny + 7.0) + 1;
    assert row - 1 == TileOf(ny);
    LandedRests(g, x, row);
  }

  /** Both landing paths end at rest on the ground: a body falling less than a tile per
      tick from a clear place, whether it hits the ground this tick or is snapped onto it
      by the look-ahead probe, ends clear with its bottom edge on the top of the ground. */
  lemma LandingRests(g: Grid, p: Player)
    requires 0.0 <= p.y || TopRowFree(g)
    requires 0.0 < p.dy <= 7.0 && Clear(g, p.x, p.y)
    ensures var r := MoveVertically(g, p); r.onGround ==> RestsOn(g, r.x, r.y)
  {
    var ny := p.y + p.dy;
    if p.y < 0.0 {
      LandingFromAbove(g, p);
    } else if !Clear(g, p.x, ny) {
      DirectHitRests(g, p.x, p.y, p.dy);
    } else if !Clear(g, p.x, ny + 1.0) {
      SnapRests(g, p.x, ny);
    }
  }

  /** With the top row free, a body falling from above the map top can only land on the
      second row, and then rests on it at y = 0, by either landing path. */
  lemma LandingFromAbove(g: Grid, p: Player)
    requires TopRowFree(g) && p.y < 0.0 && 0.0 < p.dy <= 7.0
    ensures var r := MoveVertically(g, p); r.onGround ==> RestsOn(g, r.x, r.y)
  {
    var ny := p.y + p.dy;
    ProbeBelowTop(g, p.x, ny);
    ProbeBelowTop(g, p.x, ny + 1.0);
    assert RowClear(g, p.x, 0) && TileOf(ny) <= 0 && TileOf(ny + 1.0) <= 0;
    if !Clear(g, p.x, ny) {
      ClearByRows(g, p.x, ny);
      assert !RowClear(g, p.x, 1);
      LandedRests(g, p.x, 1);
    } else if !Clear(g, p.x, ny + 1.0) {
      ClearByRows(g, p.x, ny + 1.0);
      assert !RowClear(g, p.x, 1);
      LandedRests(g, p.x, 1);
    }
  }

  /** A head bump while rising less than a tile from a clear place hits the row just above
      the body's top row, and puts the body back at the top of its own top row. */
  lemma CeilingKeepsClear(g: Grid, x: real, y: real, dy: real)
    requires 0.0 <= y + dy && -7.0 <= dy <= 0.0 && Clear(g, x, y) && !Clear(g, x, y + dy)
    ensures Clear(g, x, CheckTileCollision(g, x, y + dy).groundY as real + 8.0)
    ensures CheckTileCollision(g, x, y + dy).groundY as real + 8.0 <= y
  {
    var ny := y + dy;
    BoxRows(y);
    BoxRows(ny);
    TileOfMonotonic(ny, y);
    TileOfMonotonic(y, ny + 7.0);
    TileOfMonotonic(ny + 7.0, y + 7.0);
    ClearByRows(g, x, y);
    ClearByRows(g, x, ny);
    var row := TileOf(ny);
    assert row == TileOf(y) - 1;
    AlignedBox(TileOf(y));
    ClearByRows(g, x, 8.0 * TileOf(y) as real);
  }

  /** The vertical pass never leaves a body inside ground it started clear of, whether it
      falls, lands, or bumps its head, as long as it moves less than a tile and either
      starts at y >= 0 or the level's top row holds no ground. From y >= 0, a rise that
      ends above the map top probes only the top row, which the body already cleared, so
      it is never blocked. */
  lemma VerticalPassKeepsClear(g: Grid, p: Player)
    requires 0.0 <= p.y || TopRowFree(g)
    requires -7.0 <= p.dy <= 7.0 && Clear(g, p.x, p.y)
    ensures var r := MoveVertically(g, p); Clear(g, r.x, r.y)
  {
    var ny := p.y + p.dy;
    if p.y < 0.0 {
      VerticalPassFromAbove(g, p);
    } else if ny < 0.0 {
      TopRowClear(g, p.x, p.y, ny);
      assert MoveVertically(g, p) == p.(y := ny, onGround := false, isFalling := true);
    } else if !CheckTileCollision(g, p.x, ny).hit && (p.dy <= 0.0 || !CheckTileCollision(g, p.x, ny + 1.0).hit) {
      assert MoveVertically(g, p) == p.(y := ny, onGround := false, isFalling := true);
    } else if p.dy > 0.0 {
      LandingRests(g, p);
    } else {
      CeilingCase(g, p);
    }
  }

  /** No ground anywhere in the level's top row. */
  predicate TopRowFree(g: Grid) {
    forall col :: 0 <= col < Cols ==> !SolidAt(g, col, 0)
  }

  /** With the top row free, a box whose top edge is above y = 1 probes only the top row
      and the rows above the map, so it is clear. */
  lemma AboveTopClear(g: Grid, x: real, y: real)
    requires TopRowFree(g) && y < 1.0
    ensures Clear(g, x, y)
  {
    ClearByRows(g, x, y);
    assert TileOf(y) <= 0 && TileOf(y + 7.0) <= 0;
    assert !SolidAt(g, TileOf(x), 0) && !SolidAt(g, TileOf(x + 7.0), 0);
  }

  /** With the top row free, a box whose top edge is above y = 8 can only be blocked by
      the second row, whose top is at y = 8. */
  lemma ProbeBelowTop(g: Grid, x: real, y: real)
    requires TopRowFree(g) && y < 8.0
    ensures CheckTileCollision(g, x, y).hit ==> CheckTileCollision(g, x, y).groundY == 8
  {
    assert TileOf(y) <= 0 && TileOf(y + 7.0) <= 1;
    assert !SolidAt(g, TileOf(x), 0) && !SolidAt(g, TileOf(x + 7.0), 0);
  }

  /** With the top row free, the vertical pass from above the map top either moves the
      body to a clear box or lands it on the second row at y = 0. */
  lemma VerticalPassFromAbove(g: Grid, p: Player)
    requires TopRowFree(g) && p.y < 0.0 && -7.0 <= p.dy <= 7.0
    ensures var r := MoveVertically(g, p); Clear(g, r.x, r.y)
  {
    var ny := p.y + p.dy;
    ProbeBelowTop(g, p.x, ny);
    ProbeBelowTop(g, p.x, ny + 1.0);
    AboveTopClear(g, p.x, 0.0);
    if p.dy <= 0.0 {
      AboveTopClear(g, p.x, ny);
    }
  }

  /** Every y in (-8, 8) truncates to row 0, so a box starting there and one with its top
      edge in (-8, 1) both probe the top row alone: if the first is clear, so is the
      second. */
  lemma TopRowClear(g: Grid, x: real, y: real, ny: real)
    requires 0.0 <= y < 8.0 && -8.0 < ny < 1.0 && Clear(g, x, y)
    ensures Clear(g, x, ny)
  {
    ClearByRows(g, x, y);
    ClearByRows(g, x, ny);
    assert TileOf(y) == 0 && TileOf(ny) == 0 && TileOf(ny + 7.0) == 0;
  }

  /** The head-bump branch of `VerticalPassKeepsClear`. */
  lemma CeilingCase(g: Grid, p: Player)
    requires 0.0 <= p.y + p.dy && -7.0 <= p.dy <= 0.0 && Clear(g, p.x, p.y) && !Clear(g, p.x, p.y + p.dy)
    ensures var r := MoveVertically(g, p); Clear(g, r.x, r.y)
  {
    var c := CheckTileCollision(g, p.x, p.y + p.dy);
    CeilingKeepsClear(g, p.x, p.y, p.dy);
    assert MoveVertically(g, p) == p.(y := c.groundY as real + 8.0, dy := 0.0);
  }

  /** Clamping x back into the world keeps a clear body clear when it overshot by less
      than the width of a tile and its body: the clamped box uses only columns the
      overshooting box already covered. */
  lemma ClampKeepsClear(g: Grid, p: Player)
    requires -15.0 < p.x < 360.0 && Clear(g, p.x, p.y)
    ensures Clear(g, ClampX(p).x, p.y)
  {
    var x := ClampX(p).x;
    if p.x < 0.0 {
      assert TileOf(x) == 0 && TileOf(x + 7.0) == 0;
      assert TileOf(p.x + 7.0) == 0;
    } else if p.x > MaxX {
      assert TileOf(x) == 44 && TileOf(x + 7.0) == 44;
      assert TileOf(p.x) == 44;
    }
  }

  /** The horizontal pass keeps a clear body clear. */
  lemma HorizontalPassKeepsClear(g: Grid, p: Player)
    requires Clear(g, p.x, p.y)
    ensures var r := MoveHorizontally(g, p); Clear(g, r.x, r.y) && r.y == p.y && r.dy == p.dy
    ensures var r := MoveHorizontally(g, p); r.x == p.x || r.x == p.x + p.dx
  {
    var r := MoveHorizontally(g, p);
    if r.x == p.x {
      assert r == p.(x := r.x, dx := r.dx);
    }
  }

  /** One whole tick never puts the player into ground it started clear of, for a body
      inside the level's vertical extent (y >= 0) and left of x = 349 whose state is
      `Bounded`; a body above the map top is covered too when the top row holds no
      ground. The horizontal speed is at most 11, so even the fastest dash overshoots the
      right edge by less than the clamp can take back without covering a new column. */
  lemma TickKeepsClear(cfg: Config, g: Grid, p: Player, input: Input)
    requires 0.0 <= p.x < 349.0 && (0.0 <= p.y || TopRowFree(g))
    requires Clear(g, p.x, p.y) && Bounded(cfg, p)
    ensures Clear(g, Update(cfg, g, p, input).x, Update(cfg, g, p, input).y)
  {
    RunKeepsBounded(cfg, p, input);
    var p3 := Run(cfg, p, input);
    RiseSpeedBound(cfg, p3, input);
    var p7 := Rise(cfg, p3, input);
    assert p7.x == p.x && p7.y == p.y && -11.0 <= p7.dx <= 11.0;
    HorizontalPassKeepsClear(g, p7);
    var p8 := MoveHorizontally(g, p7);
    assert p8.y == p.y && -7.0 <= p8.dy <= 7.0;
    VerticalPassKeepsClear(g, p8);
    var p9 := MoveVertically(g, p8);
    assert -15.0 < p9.x < 360.0 && Clear(g, p9.x, p9.y);
    ClampKeepsClear(g, p9);
    assert Move(g, p7) == ClampX(p9);
    assert Update(cfg, g, p, input) == Move(g, p7);
  }

  /** With no key down, the input phase leaves a standing body where it is, and only
      gravity changes its vertical speed. */
  lemma IdleInput(cfg: Config, p: Player)
    requires p.dx == 0.0 && p.dy == 0.0
    ensures var q := Rise(cfg, Run(cfg, p, NoKeys), NoKeys);
            && q.x == p.x && q.y == p.y && q.dx == 0.0 && q.onGround == p.onGround
            && q.dy == (if p.onGround then 0.0 else Gravity)
  {
    var p1 := if cfg.dashEnabled then TickDashTimers(p) else p;
    var p2 := HorizontalInput(cfg, p1, NoKeys);
    assert p2.dx == 0.0;
    var p3 := StartDash(cfg, LimitSpeed(cfg, p2), NoKeys);
    assert p3 == Run(cfg, p, NoKeys);
    assert p3.dx == 0.0 && p3.dy == 0.0 && p3.x == p.x && p3.y == p.y && p3.onGround == p.onGround;
    var p6 := CutOff(Jump(cfg, p3, NoKeys), NoKeys);
    assert p6 == p3;
  }

  /** A player standing still on the ground does not stay grounded: an idle tick takes
      the "clear move, not downward" branch and clears the ground flag without moving. */
  lemma IdleTickLeavesGround(cfg: Config, g: Grid, p: Player)
    requires p.onGround && p.dy == 0.0 && p.dx == 0.0 && 0.0 <= p.x <= MaxX && Clear(g, p.x, p.y)
    ensures var r := Update(cfg, g, p, NoKeys);
            !r.onGround && r.x == p.x && r.y == p.y && r.dy == 0.0 && r.dx == 0.0
  {
    IdleInput(cfg, p);
  }

  /** The next idle tick applies gravity, and the look-ahead probe snaps the player back,
      grounded, to the same place. */
  lemma IdleTickSnapsBack(cfg: Config, g: Grid, p: Player, k: nat)
    requires !p.onGround && p.dy == 0.0 && p.dx == 0.0 && 0.0 <= p.x <= MaxX
    requires p.y == 8.0 * k as real && RestsOn(g, p.x, p.y)
    ensures var r := Update(cfg, g, p, NoKeys);
            r.onGround && r.x == p.x && r.y == p.y && r.dy == 0.0 && r.dx == 0.0
  {
    IdleInput(cfg, p);
    var q := Rise(cfg, Run(cfg, p, NoKeys), NoKeys);
    var h := MoveHorizontally(g, q);
    assert h == q;
    SnapBack(g, h, k);
    var v := MoveVertically(g, h);
    assert ClampX(v) == v;
    assert Update(cfg, g, p, NoKeys) == ClampX(v);
  }

  /** The vertical pass of that tick: the look-ahead probe lands the body where it was. */
  lemma SnapBack(g: Grid, h: Player, k: nat)
    requires h.y == 8.0 * k as real && h.dy == Gravity && RestsOn(g, h.x, h.y)
    ensures MoveVertically(g, h) == Land(h, 8 * k + 8)
  {
    SnapFromAligned(g, h.x, k);
  }

  /** Two boxes in the same column span that cover the same rows probe alike. */
  lemma SameRows(g: Grid, x: real, y1: real, y2: real)
    requires TileOf(y1) == TileOf(y2) && TileOf(y1 + 7.0) == TileOf(y2 + 7.0)
    ensures CheckTileCollision(g, x, y1) == CheckTileCollision(g, x, y2)
  {
  }

  /** Gravity's first step from a resting place stays clear, and the look-ahead probe
      finds the ground row the body rests on. */
  lemma SnapFromAligned(g: Grid, x: real, k: nat)
    requires RestsOn(g, x, 8.0 * k as real)
    ensures var ny := 8.0 * k as real + Gravity;
            Clear(g, x, ny) && !Clear(g, x, ny + 1.0)
            && CheckTileCollision(g, x, ny + 1.0).groundY as real == 8.0 * k as real + 8.0
  {
    var y := 8.0 * k as real;
    var ny := y + Gravity;
    AlignedBox(k);
    assert TileOf(ny) == k && TileOf(ny + 7.0) == k;
    SameRows(g, x, y, ny);
    assert TileOf(ny + 1.0) == k && TileOf(ny + 1.0 + 7.0) == k + 1;
    assert TileOf(y + 1.0 + 7.0) == k + 1;
    SameRows(g, x, y + 1.0, ny + 1.0);
  }

  /** Together: while the player stands still on the ground, the ground flag alternates. */
  lemma RestingFlickers(cfg: Config, g: Grid, p: Player, k: nat)
    requires p.onGround && p.dy == 0.0 && p.dx == 0.0 && 0.0 <= p.x <= MaxX
    requires p.y == 8.0 * k as real && RestsOn(g, p.x, p.y)
    ensures var p1 := Update(cfg, g, p, NoKeys);
            var p2 := Update(cfg, g, p1, NoKeys);
            !p1.onGround && p2.onGround && p2.x == p.x && p2.y == p.y && p2.dy == 0.0 && p2.dx == 0.0
  {
    IdleTickLeavesGround(cfg, g, p);
    IdleTickSnapsBack(cfg, g, Update(cfg, g, p, NoKeys), k);
  }

  /** Why `TickKeepsClear` stops short of the right edge: a dash at 11 pixels per tick from
      x = 352 probes only columns 45 and 46, which never block, so the fall goes unchecked,
      and the clamp then pulls the body back over ground in column 44. */
  lemma RightEdgeEmbeds(g: Grid)
    requires SolidAt(g, 44, 10) && !SolidAt(g, 44, 9)
    ensures var p := Player(352.0, 72.0, 10.5, 5.65, true, false, 1, 0, true, 21, 1, true);
            var r := Update(Main, g, p, Input(false, true, false, false, false, false));
            Bounded(Main, p) && Clear(g, p.x, p.y) && r.x == MaxX && r.y == 78.0 && !Clear(g, r.x, r.y)
  {
    var p := Player(352.0, 72.0, 10.5, 5.65, true, false, 1, 0, true, 21, 1, true);
    var input := Input(false, true, false, false, false, false);
    assert TileOf(352.0) == 44 && TileOf(359.0) == 44 && TileOf(72.0) == 9 && TileOf(79.0) == 9;
    var q := Rise(Main, Run(Main, p, input), input);
    assert q == p.(dx := 11.0, dy := 6.0, dashCooldown := 20, dashDuration := 0);
    assert TileOf(363.0) == 45 && TileOf(370.0) == 46;
    var h := MoveHorizontally(g, q);
    assert h == q.(x := 363.0);
    var v := MoveVertically(g, h);
    assert v == h.(y := 78.0, onGround := false, isFalling := true);
    assert TileOf(78.0) == 9 && TileOf(85.0) == 10;
    assert Update(Main, g, p, input) == ClampX(v);
  }

  /** Why `TickKeepsClear` asks for y >= 0: above the map top truncation sends the probe of
      any y in (-8, 8) to row 0, so a body falling onto ground in the top row lands with
      its bottom edge at y = 0, inside that ground, and the next tick's head-bump branch
      pushes it through to below the row. */
  lemma TopRowLandingSinks(g: Grid)
    requires SolidAt(g, 0, 0)
    ensures var p := Player(0.0, -16.0, 0.0, 5.65, true, false, 1, 1, false, 0, 0, true);
            var p1 := Update(Main, g, p, NoKeys);
            var p2 := Update(Main, g, p1, NoKeys);
            && Bounded(Main, p) && Clear(g, p.x, p.y)
            && p1.onGround && p1.y == -8.0 && !Clear(g, p1.x, p1.y)
            && p2.x == 0.0 && p2.y == 8.0
  {
    var p := Player(0.0, -16.0, 0.0, 5.65, true, false, 1, 1, false, 0, 0, true);
    assert TileOf(0.0) == 0 && TileOf(7.0) == 0 && TileOf(-16.0) == -2 && TileOf(-9.0) == -1;
    var q := Rise(Main, Run(Main, p, NoKeys), NoKeys);
    assert q == p.(dy := 6.0);
    var h := MoveHorizontally(g, q);
    assert h == q;
    assert TileOf(-10.0) == -1 && TileOf(-3.0) == 0;
    var p1 := Land(h, 0);
    assert MoveVertically(g, h) == p1;
    assert Update(Main, g, p, NoKeys) == p1;
    assert TileOf(-8.0) == -1 && TileOf(-1.0) == 0;
    var q1 := Rise(Main, Run(Main, p1, NoKeys), NoKeys);
    assert q1 == p1;
    var h1 := MoveHorizontally(g, q1);
    assert h1 == q1;
    assert MoveVertically(g, h1) == h1.(y := 8.0, dy := 0.0);
    assert Update(Main, g, p1, NoKeys) == h1.(y := 8.0, dy := 0.0);
  }
}

=== FILE: snowfall.dfy ===
/** The decorative snow of the christmas variant: flakes fall half a pixel per tick, stop
    on the first ground tile below them, and are dropped from the list once stopped or
    below the bottom of the 128 pixel world. */
module Snowfall {
  import opened Tiles

  /** A flake's sprite pattern only matters for drawing and is not kept. */
  datatype Flake = Flake(x: real, y: real, isActive: bool)

  const FallSpeed: real := 0.5
  /** A flake below this height has left the world. */
  const Bottom: real := 128.0
  /** A new flake appears on every 7th running tick. */
  const SpawnEvery: int := 7

  /** `Snow.update`: a stopped flake stays as it is. A falling flake moves down half a
      pixel and stops exactly when the tile just below its new position is ground; a
      tile outside the level never stops it. */
  function Update(g: Grid, f: Flake): (r: Flake)
    ensures !f.isActive ==> r == f
    ensures f.isActive ==> r.x == f.x && r.y == f.y + FallSpeed
    ensures f.isActive ==> (!r.isActive <==> SolidAt(g, TileOf(f.x), TileOf(r.y + 1.0)))
    ensures f.isActive && !(0 <= TileOf(f.x) < Cols && 0 <= TileOf(r.y + 1.0) < Rows) ==> r.isActive
  {
    if !f.isActive then f
    else
      var y := f.y + FallSpeed;
      var col, row := TileOf(f.x), TileOf((y + 1.0));
      if 0 <= col < Cols && 0 <= row < Rows && IsGround(Cell(g, col, row)) then
        Flake(f.x, y, false)
      else
        Flake(f.x, y, true)
  }

  /** A flake as `Snow()` creates it: falling, at a whole-pixel position anywhere across
      the 360 pixel world and 16 to 32 pixels from the top. */
  predicate Fresh(f: Flake) {
    f.isActive && f.x == f.x.Floor as real && f.y == f.y.Floor as real
    && 0.0 <= f.x <= 360.0 && 16.0 <= f.y <= 32.0
  }

  /** A flake stays on the list after its update. */
  predicate Keeps(f: Flake) {
    f.isActive && f.y <= Bottom
  }

  /** The sweep over the list: every flake is updated, and those that stopped or fell out
      of the world are removed; the survivors keep their order. */
  function Sweep(g: Grid, fs: seq<Flake>): (r: seq<Flake>)
    ensures |r| <= |fs|
    ensures forall f :: f in r <==> f in Updated(g, fs) && Keeps(f)
  {
    if |fs| == 0 then []
    else
      var f := Update(g, fs[0]);
      var rest := Sweep(g, fs[1..]);
      if Keeps(f) then [f] + rest else rest
  }

  /** Every flake of the list, updated, in order. */
  function Updated(g: Grid, fs: seq<Flake>): (r: seq<Flake>)
    ensures |r| == |fs| && forall i :: 0 <= i < |fs| ==> r[i] == Update(g, fs[i])
  {
    if |fs| == 0 then [] else [Update(g, fs[0])] + Updated(g, fs[1..])
  }

  /** The flakes of a list that stay on it, in order. */
  function Kept(fs: seq<Flake>): (r: seq<Flake>)
    ensures |r| <= |fs|
    ensures forall i :: 0 <= i < |r| ==> Keeps(r[i])
  {
    if |fs| == 0 then []
    else if Keeps(fs[0]) then [fs[0]] + Kept(fs[1..])
    else Kept(fs[1..])
  }

  /** The sweep updates and removes in one pass; it is the same as updating every flake
      first and then keeping, in order, those that stay. */
  lemma {:induction false} SweepIsUpdateThenKeep(g: Grid, fs: seq<Flake>)
    ensures Sweep(g, fs) == Kept(Updated(g, fs))
  {
    if |fs| > 0 {
      SweepIsUpdateThenKeep(g, fs[1..]);
      assert Updated(g, fs)[1..] == Updated(g, fs[1..]);
    }
  }

  /** A list of kept flakes over open air only keeps falling: the sweep removes none of them
      that stays inside the world and above the ground. */
  lemma {:induction false} SweepKeepsFalling(g: Grid, fs: seq<Flake>)
    requires forall i :: 0 <= i < |fs| ==> Keeps(fs[i]) && fs[i].y + FallSpeed <= Bottom
    requires forall i :: 0 <= i < |fs| ==> !SolidAt(g, TileOf(fs[i].x), TileOf(fs[i].y + FallSpeed + 1.0))
    ensures Sweep(g, fs) == Updated(g, fs)
  {
    if |fs| > 0 {
      assert forall j :: 1 <= j < |fs| ==> fs[j] == fs[1..][j - 1];
      SweepKeepsFalling(g, fs[1..]);
    }
  }

  /** A new flake is never dropped for leaving the world on its first update: it is dropped
      exactly when the tile just below it is ground. */
  lemma FreshFlakeLands(g: Grid, f: Flake)
    requires Fresh(f)
    ensures !Keeps(Update(g, f)) <==> SolidAt(g, TileOf(f.x), TileOf(f.y + FallSpeed + 1.0))
  {
  }
}

=== FILE: spawning.dfy ===
/** `App.spawn_enemies`: the level-start scan that turns every spawn marker of the 45 x 16
    level into a patrol enemy and erases the marker from the tilemap.

    The scan visits the cells row by row, left to right. It reads each cell before it
    writes it, so the enemies can be read off the original level and the cleared tilemap
    computed separately. */
module Spawning {
  import opened Tiles
  import opened Enemies

  /** A spawn marker inside the scanned 45 x 16 area. */
  predicate IsMarker(g: Grid, col: int, row: int) {
    0 <= col < Cols && 0 <= row < Rows && Cell(g, col, row) == SpawnMarker
  }

  /** The enemy a marker at (col, row) produces. */
  function SpawnAt(col: int, row: int): Enemy {
    Enemies.Spawned(TileSize * col, TileSize * row)
  }

  /** Row-major order of spawn positions: upper rows first, then left to right. */
  predicate Before(a: Enemy, b: Enemy) {
    a.y < b.y || (a.y == b.y && a.x < b.x)
  }

  /** `e` is the enemy a marker of `g` produces. */
  predicate SpawnedFrom(g: Grid, e: Enemy) {
    var col, row := e.x / TileSize, e.y / TileSize;
    IsMarker(g, col, row) && e == SpawnAt(col, row)
  }

  /** Cell (c, r) comes at or after cell (col, row) in the scan's row-major order. */
  predicate AtOrAfter(c: int, r: int, col: int, row: int) {
    row < r || (r == row && col <= c)
  }

  /** The enemies produced by the cells from (col, row) onward in row-major order. */
  function ScanFrom(g: Grid, col: int, row: int): (es: seq<Enemy>)
    requires 0 <= col < Cols && 0 <= row <= Rows
    ensures forall i :: 0 <= i < |es| ==>
              SpawnedFrom(g, es[i]) && AtOrAfter(es[i].x / TileSize, es[i].y / TileSize, col, row)
    ensures forall c, r :: IsMarker(g, c, r) && AtOrAfter(c, r, col, row) ==> SpawnAt(c, r) in es
    ensures forall i, j :: 0 <= i < j < |es| ==> Before(es[i], es[j])
    decreases Rows - row, Cols - col
  {
    if row == Rows then []
    else
      var rest := if col + 1 == Cols then ScanFrom(g, 0, row + 1) else ScanFrom(g, col + 1, row);
      if Cell(g, col, row) == SpawnMarker then
        var e := SpawnAt(col, row);
        assert e.x / TileSize == col && e.y / TileSize == row;
        assert forall i :: 0 <= i < |rest| ==> Before(e, rest[i]);
        [e] + rest
      else
        rest
  }

  /** The tilemap after the scan: markers inside the scanned area become empty tiles. */
  function ClearMarkers(g: Grid): (r: Grid)
    ensures |r| == |g| && forall row :: 0 <= row < |g| ==> |r[row]| == |g[row]|
    ensures forall col, row :: IsMarker(g, col, row) ==> Cell(r, col, row) == EmptyTile
    ensures forall col, row :: !IsMarker(g, col, row) ==> Cell(r, col, row) == Cell(g, col, row)
    ensures forall col, row :: !IsMarker(r, col, row)
  {
    seq(|g|, row requires 0 <= row < |g| =>
      seq(|g[row]|, col requires 0 <= col < |g[row]| =>
        if IsMarker(g, col, row) then EmptyTile else g[row][col]))
  }

  /** `spawn_enemies`: one enemy per spawn marker, at the marker's pixel position, listed
      in row-major order, and a tilemap in which exactly the markers have been erased. */
  function SpawnEnemies(g: Grid): (r: (seq<Enemy>, Grid))
    ensures forall i :: 0 <= i < |r.0| ==> SpawnedFrom(g, r.0[i])
    ensures forall col, row :: IsMarker(g, col, row) ==> SpawnAt(col, row) in r.0
    ensures forall i, j :: 0 <= i < j < |r.0| ==> Before(r.0[i], r.0[j])
    ensures forall i, j :: 0 <= i < |r.0| && 0 <= j < |r.0| && r.0[i].x == r.0[j].x && r.0[i].y == r.0[j].y ==> i == j
    ensures forall i :: 0 <= i < |r.0| ==> Patrolling(r.0[i])
    ensures forall col, row :: IsMarker(g, col, row) ==> Cell(r.1, col, row) == EmptyTile
    ensures forall col, row :: !IsMarker(g, col, row) ==> Cell(r.1, col, row) == Cell(g, col, row)
    ensures forall col, row :: !IsMarker(r.1, col, row)
  {
    var es := ScanFrom(g, 0, 0);
    assert forall i :: 0 <= i < |es| ==> Patrolling(es[i]);
    (es, ClearMarkers(g))
  }

  /** The scan finds nothing to do on a level without markers: no enemies, and the tilemap
      is untouched. Spawning a second time from the cleared tilemap is therefore a no-op. */
  lemma SpawnIsIdempotent(g: Grid)
    ensures var r := SpawnEnemies(g); SpawnEnemies(r.1).0 == [] && SpawnEnemies(r.1).1 == r.1
  {
    var r := SpawnEnemies(g);
    var s := SpawnEnemies(r.1);
    assert |s.0| > 0 ==> SpawnedFrom(r.1, s.0[0]);
    NothingToClear(r.1);
  }

  /** Clearing a tilemap without markers changes nothing. */
  lemma NothingToClear(g: Grid)
    requires forall col, row :: !IsMarker(g, col, row)
    ensures ClearMarkers(g) == g
  {
    var h := ClearMarkers(g);
    forall row | 0 <= row < |g|
      ensures h[row] == g[row]
    {
      forall col | 0 <= col < |g[row]|
        ensures h[row][col] == g[row][col]
      {
        assert Cell(h, col, row) == Cell(g, col, row);
      }
    }
  }
}

=== FILE: tiles.dfy ===
/** The level's tilemap and the four-corner probe every moving body uses against it.

    The level is 45 columns by 16 rows of 8 x 8 pixel tiles (a 360 x 128 pixel world).
    A tile is the (u, v) pair the tilemap stores; the tiles (0, 1) and (0, 2) are ground,
    everything else lets bodies through. */
module Tiles {

  type Tile = (int, int)

  /** The tilemap, indexed `grid[row][col]`. */
  type Grid = seq<seq<Tile>>

  const Cols: int := 45
  const Rows: int := 16
  const TileSize: int := 8

  const EmptyTile: Tile := (0, 0)
  const SpawnMarker: Tile := (1, 0)

  predicate IsGround(t: Tile) {
    t.0 == 0 && (t.1 == 1 || t.1 == 2)
  }

  /** The tile stored at (col, row); cells the sequence does not hold read as empty. */
  function Cell(g: Grid, col: int, row: int): Tile {
    if 0 <= row < |g| && 0 <= col < |g[row]| then g[row][col] else EmptyTile
  }

  /** Ground inside the 45 x 16 level; everything outside it never blocks. */
  predicate SolidAt(g: Grid, col: int, row: int) {
    0 <= col < Cols && 0 <= row < Rows && IsGround(Cell(g, col, row))
  }

  /** Python's `int(v)` on a float: truncation toward zero. */
  function Trunc(v: real): (n: int)
    ensures 0.0 <= v ==> n as real <= v < n as real + 1.0
    ensures v < 0.0 ==> n as real - 1.0 < v <= n as real
  {
    if v >= 0.0 then v.Floor else -((-v).Floor)
  }

  /** The tile index of a pixel coordinate, `int(v / 8)`. Because the division truncates,
      every coordinate strictly between -8 and 8 falls in tile 0. */
  function TileOf(v: real): (n: int)
    ensures 0.0 <= v ==> 8.0 * n as real <= v < 8.0 * n as real + 8.0
    ensures v < 0.0 ==> 8.0 * n as real - 8.0 < v <= 8.0 * n as real
    ensures -8.0 < v < 8.0 ==> n == 0
  {
    Trunc(v / 8.0)
  }

  lemma TileOfMonotonic(a: real, b: real)
    requires a <= b
    ensures TileOf(a) <= TileOf(b)
  {
  }

  /** What `check_tile_collision` returns: whether a corner is ground, and if so
      8 times the row of the first such corner. */
  datatype Probe = Probe(hit: bool, groundY: int)

  /** The four corners of the 8 x 8 box at (x, y), as (col, row), in the order
      top-left, top-right, bottom-left, bottom-right. */
  function Corners(x: real, y: real): (cs: seq<(int, int)>)
    ensures |cs| == 4
  {
    var left, right := TileOf(x), TileOf(x + 7.0);
    var top, bottom := TileOf(y), TileOf(y + 7.0);
    [(left, top), (right, top), (left, bottom), (right, bottom)]
  }

  /** Scans the cells in order and reports the first solid one. */
  function FirstSolid(g: Grid, cs: seq<(int, int)>): (p: Probe)
    ensures !p.hit <==> forall i :: 0 <= i < |cs| ==> !SolidAt(g, cs[i].0, cs[i].1)
    ensures !p.hit ==> p.groundY == 0
    ensures p.hit ==> exists i :: 0 <= i < |cs| && SolidAt(g, cs[i].0, cs[i].1) && p.groundY == 8 * cs[i].1
                                 && forall j :: 0 <= j < i ==> !SolidAt(g, cs[j].0, cs[j].1)
  {
    if |cs| == 0 then Probe(false, 0)
    else if SolidAt(g, cs[0].0, cs[0].1) then Probe(true, 8 * cs[0].1)
    else
      var p := FirstSolid(g, cs[1..]);
      assert forall i :: 1 <= i < |cs| ==> cs[i] == cs[1..][i - 1];
      assert p.hit ==> exists i :: 1 <= i < |cs| && SolidAt(g, cs[i].0, cs[i].1) && p.groundY == 8 * cs[i].1
                                 && forall j :: 0 <= j < i ==> !SolidAt(g, cs[j].0, cs[j].1) by {
        if p.hit {
          var k :| 0 <= k < |cs[1..]| && SolidAt(g, cs[1..][k].0, cs[1..][k].1) && p.groundY == 8 * cs[1..][k].1
                   && forall j :: 0 <= j < k ==> !SolidAt(g, cs[1..][j].0, cs[1..][j].1);
          assert forall j :: 0 <= j < k + 1 ==> !SolidAt(g, cs[j].0, cs[j].1) by {
            forall j | 0 <= j < k + 1 ensures !SolidAt(g, cs[j].0, cs[j].1) {
              if j > 0 { assert cs[j] == cs[1..][j - 1]; }
            }
          }
        }
      }
      p
  }

  /** `check_tile_collision(x, y)`: the box at (x, y) is blocked exactly when one of its
      four corner cells is ground; the reported height is the top of the first such
      corner's row, taking the top corners before the bottom ones. The corner loop is
      unrolled here; `ProbeScansCorners` shows it agrees with the scan. */
  function CheckTileCollision(g: Grid, x: real, y: real): (p: Probe)
    ensures !p.hit <==> !SolidAt(g, TileOf(x), TileOf(y)) && !SolidAt(g, TileOf(x + 7.0), TileOf(y))
                        && !SolidAt(g, TileOf(x), TileOf(y + 7.0)) && !SolidAt(g, TileOf(x + 7.0), TileOf(y + 7.0))
    ensures !p.hit ==> p.groundY == 0
    ensures p.hit ==> p.groundY == 8 * (if SolidAt(g, TileOf(x), TileOf(y)) || SolidAt(g, TileOf(x + 7.0), TileOf(y))
                                         then TileOf(y) else TileOf(y + 7.0))
  {
    var left, right, top, bottom := TileOf(x), TileOf(x + 7.0), TileOf(y), TileOf(y + 7.0);
    if SolidAt(g, left, top) || SolidAt(g, right, top) then Probe(true, 8 * top)
    else if SolidAt(g, left, bottom) || SolidAt(g, right, bottom) then Probe(true, 8 * bottom)
    else Probe(false, 0)
  }

  /** The probe is the corner loop: scanning the four corners in order gives the same
      answer. */
  lemma ProbeScansCorners(g: Grid, x: real, y: real)
    ensures CheckTileCollision(g, x, y) == FirstSolid(g, Corners(x, y))
  {
    var cs := Corners(x, y);
    assert cs[1..][1..][1..][1..] == [];
    assert cs[1..][0] == cs[1] && cs[1..][1..][0] == cs[2] && cs[1..][1..][1..][0] == cs[3];
  }

  /** The box at (x, y) touches no ground cell. */
  predicate Clear(g: Grid, x: real, y: real) {
    !CheckTileCollision(g, x, y).hit
  }
}
